=== FILE: README.md ===
# telescope core, modelled in Dafny

This project models the core of `telescope`, a Go web-service scaffold. The model covers:

- **Cache-aside store** (`cache/cache_aside.go`): byte payloads over Redis. Payloads above
  4 KiB are gzip-compressed, reads recognise the gzip magic, values go through msgpack,
  and keys are revoked singly or by glob pattern in batches.
- **PostgreSQL LISTEN/NOTIFY multiplexer** (`database/pg.go`): a topic-to-callbacks
  registry filled by `Watch` and read by the dispatch loop.
- **Length-limited reader** (`limitreader/limitreader.go`).
- **Metric key and bucket helpers** (`metric/collector.go`).
- **Decisions inside the HTTP middlewares** (`controller/middleware.go`), with the API error
  type of `errorcode/errors.go`.
- **`RawMessage`** (`internal/json/jsoniter.go`), with its nil-versus-empty byte slices.

Everything is pure: immutable datatypes and state-transition functions. The methods are
the scan-and-unlink loop of `RevokeCacheByPattern`, proved equal to a functional reference
outcome, and two entry points that run that loop with a fixed batch size.

How the outside world appears in the model:

- The Redis keyspace is a `map<string, Entry>`.
- A failure of a Redis or PostgreSQL call is an `Option<Error>` argument.
- gzip and msgpack are pairs of opaque functions. The laws the real libraries keep are
  ghost predicates (`LawfulGzip`, `LawfulCodec`), which lemmas take as hypotheses. Two
  witness lemmas show each law can be met.
- Go error values are a datatype. `Wrap` is `fmt.Errorf("<context>: %w", cause)`.
  `errors.Is` and `errors.As` are defined over it.

Modules, one per source component:

| module | file |
|---|---|
| `Wrappers` (`Option`, `Result`) | `wrappers.dfy` |
| `ErrorCode` | `errorcode.dfy` |
| `Errors` | `errors.dfy` |
| `CacheAside` | `cache_aside.dfy` |
| `CacheRevoke` | `cache_revoke.dfy` |
| `PgWatch` | `pg_watch.dfy` |
| `LimitReader` | `limit_reader.dfy` |
| `Metric` | `metric.dfy` |
| `Middleware` | `middleware.dfy` |
| `RawJson` | `raw_json.dfy` |

Where the code's own comments and the code disagree, the model follows the code:

- **Batch size.** Pattern revocation unlinks in batches of 1001 keys, not the "every 1000
  keys" its comment at cache/cache_aside.go:118 announces (see Findings).

Behaviour the model keeps as the code has it:

- **Callback failures.** The dispatch loop has no `recover`, so a panicking callback is not
  contained. The model does not claim containment.
- **Sequential dispatch.** Callbacks of one notification run in registration order under one
  shared 10-second context.

## Model

| member | source | states |
|---|---|---|
| ErrorCode.NewError | errorcode/errors.go:31-52 | the accessors `Code`, `StatusCode` and `Error` return exactly the code, status and message the error was built with |
| ErrorCode.AccessorsDetermineError | errorcode/errors.go:22-52 | an API error is determined by its three accessors: two errors with equal accessors are equal, and rebuilding from the accessors gives the same error |
| ErrorCode.ErrUnauthorizedFields | errorcode/errors.go:16-19 | `ErrUnauthorized` has HTTP status 403, code 600401 and message "Unauthorized" |
| ErrorCode.CodesDistinct | errorcode/errors.go:5-14 | the general, bad-binding and unauthorized codes are 1, 600001 and 600401, pairwise distinct |
| Errors.As | controller/middleware.go:74-76 | `errors.As` into `*errorcode.Error` finds `Some(a)` exactly when `Api(a)` is reachable by unwrapping (`errors.Is`), both directions |
| CacheAside.IsGzipped | cache/cache_aside.go:158-174 | true exactly when the content has at least three bytes and starts with the gzip magic 1f 8b 08 |
| CacheAside.ShouldCompress | cache/cache_aside.go:151-155 | true exactly when the payload is longer than 4096 bytes and does not start with the gzip magic; its partner `StoredFraming` shows the write it steers never double-compresses |
| CacheAside.UpdateCacheBytes | cache/cache_aside.go:227-257 | a failing SET changes nothing; its error is returned as-is for an uncompressed payload and wrapped "redis SET gzipped" for a compressed one; on success only `key` changes, with the given expiration, holding the payload verbatim or its gzip form according to `shouldCompress` |
| CacheAside.StoredFraming | cache/cache_aside.go:151-257 | after a successful write the stored bytes are gzip-framed iff the payload is over 4096 bytes or was framed already (never double-compressed); a payload of at most 4096 bytes is stored verbatim |
| CacheAside.ReadCacheBytes | cache/cache_aside.go:178-221 | a GET failure or a missing key is returned wrapped "redis GET" (the miss as `redis.Nil`); unframed bytes come back verbatim; framed bytes are gunzipped, and a gunzip failure comes back as the gzip error wrapped "gzip.NewReader", "reader.Reset" or "io.Copy" |
| CacheAside.GunzipFailureIsNoMiss | cache/cache_aside.go:178-221 | a gunzip failure is never reported as a miss: neither `ReadCacheBytes` nor `ReadCache` (which wraps it "ReadCacheBytes") returns an error that `errors.Is` `redis.Nil`, unless the gzip error itself is one |
| CacheAside.BytesRoundTrip | cache/cache_aside.go:151-221 | with a lawful gzip, reading back after a successful write gives the payload when it was not gzip-framed, and the payload gunzipped when it was |
| CacheAside.UpdateCache | cache/cache_aside.go:72-89 | an encode failure is returned wrapped "msgpack encode" and writes nothing; otherwise the store is the byte layer's and a byte-layer error comes back wrapped "UpdateCacheBytes" |
| CacheAside.ReadCache | cache/cache_aside.go:50-65 | a byte-layer failure comes back wrapped "ReadCacheBytes", a decode failure wrapped "msgpack decoding", otherwise the decoded value |
| CacheAside.CacheRoundTrip | cache/cache_aside.go:50-89 | with lawful gzip and codec, `ReadCache` after a successful `UpdateCache(v)` yields `v`, and the entry keeps the given expiration (0 for "never expires" included) |
| CacheAside.RevokeCache | cache/cache_aside.go:92-100 | a failing UNLINK changes nothing and is wrapped "redis Unlink"; an empty key list is still sent and Redis's arity error comes back wrapped the same way; otherwise exactly the given keys are gone, absent keys are no error, and every other key keeps its value |
| CacheAside.RevokeIdempotent | cache/cache_aside.go:92-100 | with at least one key, a second identical revoke succeeds and leaves the store as the first left it; with none, both calls fail alike |
| CacheAside.ReadAfterRevokeMisses | cache/cache_aside_test.go:117-120 | after revoking a key, reading it fails with an error that `errors.Is` `redis.Nil` |
| CacheAside.GzipLawSatisfiable | cache/cache_aside.go:151-221 | the gzip law used as a hypothesis can be met |
| CacheAside.CodecLawSatisfiable | cache/cache_aside.go:50-89 | the codec law used as a hypothesis can be met |
| CacheRevoke.RevokeByPatternBatched | cache/cache_aside.go:108-148 | the scan-and-unlink loop with flush size `n` ends in exactly the reference outcome `Expected`: full batches in order until one fails, then the iterator error, then the remainder |
| CacheRevoke.RevokeCacheByPattern | cache/cache_aside.go:108-148 | the source's loop (flush when the counter passes 1000) equals the reference outcome with batches of 1001 |
| CacheRevoke.RevokeCacheByPatternIntended | cache/cache_aside.go:118-120 | with batches of 1000, no UNLINK carries more than 1000 keys, and a run without errors unlinks exactly the scanned keys |
| CacheRevoke.BatchSizes | cache/cache_aside.go:115-145 | every UNLINK call carries between 1 and `n` keys, and all but the last carry exactly `n` |
| CacheRevoke.SuccessUnlinksScan | cache/cache_aside.go:108-148 | a run without errors sends every scanned key once, in scan order, and the store loses exactly those keys |
| CacheRevoke.IterErrorKeepsTail | cache/cache_aside.go:133-137 | with an iterator error the run ends with an error (the iterator's, or an earlier failing UNLINK's), and the pending partial batch is never sent |
| CacheRevoke.UnlinkFailureStops | cache/cache_aside.go:119-145 | when an UNLINK fails the run stops there, and the store has lost exactly the keys of the earlier calls |
| CacheRevoke.RemovedIsScanPrefix | cache/cache_aside.go:108-148 | whatever happens, the keys removed form a prefix of the scan |
| CacheRevoke.NonMatchingUntouched | cache/cache_aside.go:108-148 | a key the scan did not yield keeps its value |
| CacheRevoke.AsWrittenSendsBatchOf1001 | cache/cache_aside.go:118-120 | as written, 1001 matching keys go out in one UNLINK of 1001 keys |
| PgWatch.Register | database/pg.go:145-149 | for every topic, the new list is the old list followed by one copy of the callback per listing of that topic; the set of topics only grows |
| PgWatch.Watch | database/pg.go:130-152 | the first call creates the listener and an empty registry, once; a LISTEN failure is wrapped "db.listener.Listen" and registers nothing; otherwise registration as in `Register` |
| PgWatch.Invocations | database/pg.go:159-161 | one call per registered callback, in list order, each with the same context and notification |
| PgWatch.Dispatch | database/pg.go:154-173 | one notification: a fresh 10-second context, every callback of its topic invoked in registration order with that context, then the cancellation |
| PgWatch.Close | database/pg.go:110-125 | at most two errors: the listener's close error (only if a listener exists), wrapped "db.listener.Close", first; the pool's, wrapped "db.pg.Close", last; with no listener failure the pool's error is the only one |
| PgWatch.CloseReportsEachFailure | database/pg.go:110-125 | every failure `Close` runs into is reported by an error that `errors.Is` it, and every reported error unwraps to one of those failures |
| PgWatch.Callbacks | database/pg.go:166-173 | the callbacks registered on a topic; a topic never registered gives the empty (nil) list |
| PgWatch.RunAppendOnly | database/pg.go:130-152 | once listening, no later run un-listens or removes, reorders or resets a registered callback: each topic's old list is a prefix of its new one |
| PgWatch.DispatchCallsEachEntryOnce | database/pg.go:154-173 | a notification calls each callback as many times as it is listed on the topic, and none for an unregistered topic |
| PgWatch.FanOutOrder | database/pg.go:145-161 | with A and B on T1 and C on T2 and T1, a T1 notification calls A, B, C in order under one context, and a T2 notification calls only C |
| PgWatch.ScenarioEvents | database/pg_test.go:37-112 | the package test's run of watches and notifications produces exactly its five dispatches, in order, against the registry of the moment |
| PgWatch.WatchAndNotifyScenario | database/pg_test.go:37-112 | in the package test's run, callback 1 is called 3 times and callbacks 2 and 3 twice each |
| LimitReader.NewReader | limitreader/limitreader.go:9-15 | a new reader has `left == originalLimit == limit` |
| LimitReader.Read | limitreader/limitreader.go:25-35 | with `left < 0` the call fails with "stream bigger than threshold N bytes", reads nothing and changes nothing; otherwise the wrapped reader is offered `min(len(p), left)` bytes, its count and error are returned unchanged, and `left` drops by that count |
| LimitReader.NewReadCloser | limitreader/limitreader.go:44-49 | the read-closer's reader starts with `left == originalLimit == limit` |
| LimitReader.ReadCloserRead | limitreader/limitreader.go:52-54 | a read through the read-closer behaves exactly as a read of its limited reader |
| LimitReader.DeliveredIsDrop | limitreader/limitreader.go:25-35 | over any run of reads, the bytes delivered equal the drop of `left`, and the original limit never changes |
| LimitReader.HonestRunStaysInLimit | limitreader/limitreader.go:26-34 | if the wrapped reader never returns more than it was offered, `left` stays within `[0, limit]`, at most `limit` bytes are delivered, and the "bigger than threshold" error never occurs |
| LimitReader.AsWrittenStallsAtLimit | limitreader/limitreader.go:25-35 | once `left` is 0, a wrapped reader answering `(0, nil)` to the empty buffer it is offered makes `Read` return `(0, nil)` with no progress and no error |
| LimitReader.AsWrittenNeverRejectsLongStream | limitreader/limitreader.go:25-35 | a one-byte limit over a two-byte stream: the first read returns the byte, every later one `(0, nil)`, and the overrun error never comes |
| LimitReader.ReadIntended | limitreader/limitreader.go:25-35 | corrected reader: never returns more than `left` bytes, counts exactly otherwise, and reports the overrun error as soon as the wrapped reader hands over a byte beyond the limit |
| LimitReader.IntendedRejectsLongStream | limitreader/limitreader.go:25-35 | a stream with more than `left` bytes gets the `left` bytes and the overrun error from the corrected reader, and the bytes with no error from the reader as written |
| LimitReader.FreshReaderNeverOverruns | limitreader/limitreader.go:9-35 | from a fresh reader with non-negative limit and an honest wrapped reader, at most `limit` bytes are delivered, exactly `limit - left`, without the overrun error |
| Metric.LastIndexOfSep | metric/collector.go:169 | `strings.LastIndex(word, ".")`: -1 when there is no dot, otherwise the index of a dot with no dot after it |
| Metric.NewStatsKey | metric/collector.go:163-179 | the field never contains a dot; a name with no dot (after prefixing) becomes the field with an empty measure; otherwise measure, dot and field put back together give the prefixed name |
| Metric.StatsKeyUnique | metric/collector.go:163-179 | the split is the only one with a dot-free field: any measure and dot-free field that rebuild the prefixed name are the key |
| Metric.StatsKeyInjective | metric/collector.go:163-179 | with a non-empty prefix, distinct names give distinct keys |
| Metric.StatsKeyCollidesWithoutPrefix | metric/collector.go:163-179 | with an empty prefix, "abc" and ".abc" give the same key ("", "abc") |
| Metric.StatsKeyTableUnprefixed | metric/collector_test.go:17-52 | the test table's four unprefixed cases: the empty name, "abc", "abc.def" (measure "abc", field "def") and "abc.def.efg" (measure "abc.def", field "efg") |
| Metric.StatsKeyTablePrefixed | metric/collector_test.go:53-79 | row by row, the test table's three prefixed cases with prefix "123": "abc" gives measure "123", field "abc"; "abc.def" gives "123.abc", "def"; "abc.def.efg" gives "123.abc.def", "efg" |
| Metric.WithInf | metric/collector.go:152-156 | one bucket per bound, in order, followed by a final `+Inf` |
| Metric.NewHistogramBuckets | metric/collector.go:144-161 | every visited name's key is in the product |
| Metric.ProductFromNames | metric/collector.go:151-158 | every key of the product belongs to some visited name, and holds that name's bounds followed by `+Inf` |
| Metric.EmptyBuckets | metric/collector.go:145-148 | an empty bucket map gives an empty product |
| Metric.PrefixedBucketsExact | metric/collector.go:144-161 | with a prefix, each name's key holds exactly its own bounds plus `+Inf`, whatever order the map is visited in |
| Metric.UnprefixedBucketsDependOnOrder | metric/collector.go:151-157 | without a prefix, for "abc" and ".abc" the product depends on the map's iteration order: the name visited last supplies the histogram |
| Middleware.ErrorMiddleware | controller/middleware.go:56-84 | no reply without a recorded error; otherwise the last error alone decides: a bind error gives 406 with code 600001; otherwise an API error in its chain gives that error's status and code; otherwise 200 with code 1; the message is always the error's text |
| Middleware.OnlyLastErrorMatters | controller/middleware.go:59 | errors recorded before the last one never change the reply |
| Middleware.ApiErrorThroughWraps | controller/middleware.go:74-76 | an API error keeps its own status and code however deeply it is wrapped, unless the entry is a bind error |
| Middleware.BindTakesPrecedence | controller/middleware.go:70-73 | the bind flag wins over an API error in the chain: 406 with code 600001 |
| Middleware.UnauthorizedReply | controller/middleware.go:74-83 | a recorded `ErrUnauthorized` becomes status 403 with code 600401 and message "Unauthorized" |
| Middleware.LimitReaderMiddleware | controller/middleware.go:131-142 | a declared length above 524288 records a private "oversized payload" error and aborts; any other length, the unknown -1 included, continues with the body behind a fresh 524288-byte limit |
| Middleware.OversizedRequestReply | controller/middleware.go:56-142 | with `ErrorMiddleware` around it, an oversized request is answered 200 with code 1 and the "oversized payload" message naming its declared length |
| Middleware.ContinuedBodyStaysInLimit | controller/middleware.go:131-142 | a request that passes the gate, even with an understated or unknown length, never has more than 524288 bytes read from its body, given a body that never returns more than it is offered |
| Middleware.CORSMiddleware | controller/middleware.go:116-128 | the four CORS headers are set to their fixed values and no other header changes; the chain aborts with 204 exactly for OPTIONS |
| Middleware.CorsIdempotent | controller/middleware.go:116-121 | applying the middleware to its own output changes no header |
| Middleware.ContainsIff | controller/middleware.go:152-199 | the substring scan finds a pattern exactly when it occurs at some position, both directions |
| Middleware.MatchesAny | controller/middleware.go:152-199 | the MIME matcher accepts a content type exactly when one of the listed types occurs in it |
| Middleware.PayloadAudit | controller/middleware.go:151-205 | HEAD, OPTIONS and skip-logging requests are not audited; otherwise the request body as the handlers read it through the tee is logged verbatim iff its content type is non-empty and contains a listed text type, else the note names the type; the response is audited only when asked, judged by its header alone |
| Middleware.SniffOnlyWithoutHeader | controller/middleware.go:189-192 | the sniffer decides the request type only when the header is empty and the body is not; otherwise every sniffer gives the header |
| Middleware.JsonWithCharsetIsText | controller/middleware.go:152-193 | "application/json; charset=utf-8" counts as text |
| Middleware.NoSlashIsNotText | controller/middleware.go:152-193 | a content type without a `/`, such as a bare "json", never counts as text |
| RawJson.MarshalJSON | internal/json/jsoniter.go:31-36 | never fails; a nil message encodes as the four bytes of `null`; any other message, the empty one included, as its own bytes |
| RawJson.UnmarshalJSON | internal/json/jsoniter.go:39-45 | through a nil pointer, the fixed error and no write; otherwise no error and `*m` becomes `data`, old contents discarded, except that a nil `*m` stays nil for empty `data` (aliasing is not modelled; see Left out) |
| RawJson.UnmarshalMarshalRoundTrip | internal/json/jsoniter.go:31-45 | after unmarshalling non-empty data, marshalling returns that data |
| RawJson.MarshalUnmarshalRoundTrip | internal/json/jsoniter.go:31-45 | a non-nil message marshalled and unmarshalled into any non-nil message comes back unchanged |
| RawJson.EmptyDataEdge | internal/json/jsoniter.go:31-45 | a nil message given empty data stays nil and marshals as `null`; a non-nil one marshals to no bytes |

## Left out

- RawJson.UnmarshalJSON: slices are values in the model, so aliasing is not modelled.
  `MarshalJSON` returns `m` itself, and `append((*m)[0:0], data...)` writes into the old
  backing array when it is large enough. A slice obtained earlier from `*m` therefore sees the
  new bytes in Go; the model's "old contents discarded" speaks only of `*m`.
- Errors.Is: compares errors as values. Go compares `*errorString`, `*wrapError` and
  `*errorcode.Error` by pointer, so two distinct allocations with equal fields are equal here
  but not there. The targets the core uses are `redis.Nil`, a sentinel made once, and API
  errors matched by type through `errors.As`, for which the two agree.
- HTTP and gin plumbing is not modelled: routing, `RecoveryMiddleware`, `LogMiddleware`,
  the logging calls of the audit middleware, `logWriter` and `readCloser`. What a middleware
  decides is modelled; how gin carries it out is not.
- Multi-valued headers are not modelled. Response headers are a map with one value per
  canonical name, which is what `Header().Set` leaves behind.
- `http.DetectContentType` is a function parameter (`sniff`). The Aho-Corasick matcher of
  `acascii` is modelled as an exact, case-sensitive substring search over the listed types.
- Connection setup and network calls are left out: `cache/cache.go`, `NewPostgres`,
  `RunInTransaction`, `Operator.Notify`, `DB.Listen`. They are I/O. Their failures appear
  only as error arguments.
- `sync.Pool`, `sync.Once` and `sync.RWMutex` are not modelled; the model is sequential.
  `Once` is the `listening` flag. The only observable effect of the reader pool is the
  wording of a header error ("reader.Reset" or "gzip.NewReader"), which is a parameter.
- gzip, deflate and msgpack internals are opaque functions with round-trip laws. Redis glob
  matching and SCAN cursor guarantees are given as the list of keys the iterator yields and
  the error it stops with.
- The `writer.Write` error branch of `UpdateCacheBytes` is not modelled. Writing into a
  `bytes.Buffer` cannot fail, so compression is total in the model.
- A failed SET or UNLINK is taken as not applied: the keyspace is left as it was. A call
  that fails on its context deadline may in fact have been applied by the server; the
  contracts of `UpdateCacheBytes`, `RevokeCache` and `UnlinkFailureStops` that say "changes
  nothing" or "lost exactly the keys of the earlier calls" hold only for failures that
  reach no server, not for that timed-out case.
- Expiration timing and TTLs are not modelled. Time is external; the expiration is only
  stored and compared, as the raw duration passed in. go-redis reads -1 (`redis.KeepTTL`)
  as "keep the key's old TTL" and any other non-positive value as "no expiry"; the model
  does not normalise these and stores the number given.
- Callback panics are not modelled. The dispatch loop does not recover from them, and the
  model does not claim containment.
- The set of topics the upstream listener is subscribed to is not tracked. Only the registry
  is modelled.
- The metric `Collector` wrappers, `ServeMetrics`, process stats and float bucket values are
  left out. Bucket bounds are of a type parameter `F`.
- `secureToken` is left out; it depends on crypto randomness.
- `cmd/telescope`, `version` and `metric/names.go` are left out: configuration, init-time
  globals and constants.
- CacheAside.ReadCache: msgpack's `decoder.Decode(dest)` decodes into the caller's `dest` in
  place. A reused non-nil map keeps its old entries, a reused struct keeps stale values in
  fields the stream omits, and a failed decode can leave `dest` partly written. The model's
  `codec.decode` returns a fresh value, which is what a fresh zero `dest` receives, so
  `ReadCache` and `CacheRoundTrip` speak only of a fresh `dest`.
- CacheAside.CacheRoundTrip: takes as a hypothesis that the encoded bytes are not
  gzip-framed. A real msgpack encoding of one value never starts with 1f 8b 08, because a
  leading 0x1f is the one-byte integer 31, but the opaque codec cannot know that.
- Metric.NewHistogramBuckets: its own contract states only that every visited name's key is
  present. What each key holds is stated by `ProductFromNames` and `PrefixedBucketsExact`.
  The map iteration order is an explicit `order` argument.

## Findings

| source | as written | input that shows it | evidently intended | confidence | as-written member | corrected member |
|---|---|---|---|---|---|---|
| cache/cache_aside.go:118-120 | the counter is tested with `i > 1000`, so a batch is flushed only when it holds 1001 keys | 1001 matching keys: one UNLINK of 1001 keys | batches of at most 1000 keys, as the comment "for every 1000 keys" says | not executed | CacheRevoke.AsWrittenSendsBatchOf1001 | CacheRevoke.RevokeCacheByPatternIntended |
| limitreader/limitreader.go:25-35 | once `left` is 0 the wrapped reader is offered an empty buffer, so an honest reader never makes `left` negative and the "stream bigger than threshold" error is unreachable; further reads return `(0, nil)`, and a caller reading to EOF spins | a limit of 1 over a two-byte body: the second and every later `Read` returns `(0, nil)` | a body longer than the limit is rejected with the threshold error, as `http.MaxBytesReader` does by asking for one byte more | not executed; medium, since a limit that only truncates may have been acceptable to the authors | LimitReader.AsWrittenNeverRejectsLongStream | LimitReader.ReadIntended |

=== FILE: cache_aside.dfy ===
/** The cache-aside store of cache/cache_aside.go over an abstract Redis keyspace.

    Redis is a map from key to stored bytes and expiration; SET, GET and UNLINK are map
    operations, and a network or server failure of a call is an explicit `fault` argument
    (a failing write leaves the map as it was). gzip and msgpack are opaque: a `Gzip` or a
    `Codec` is a pair of functions, and the laws the real libraries keep are the ghost
    predicates `LawfulGzip` and `LawfulCodec`, assumed only where a lemma asks for them. */
module CacheAside {
  import opened Wrappers
  import opened Errors

  /** Go's `time.Duration`, in nanoseconds; 0 asks Redis for a key that never expires. */
  type Duration = int

  /** Payloads strictly longer than 4 KiB are compressed. */
  const CompressThreshold: nat := 4 * 1024

  /** The first three bytes of a gzip member: ID1, ID2 and CM = 8 (deflate), as laid down
      in section 2.3.1 of RFC 1952. */
  const GzipID1: bv8 := 0x1f
  const GzipID2: bv8 := 0x8b
  const GzipDeflate: bv8 := 8
  const GzipMagic: Bytes := [GzipID1, GzipID2, GzipDeflate]

  /** What Redis holds under one key. */
  datatype Entry = Entry(value: Bytes, expiration: Duration)

  type Store = map<string, Entry>

  /** go-redis reports a missing key with the sentinel error `redis.Nil`. */
  const RedisNil: Error := New("redis: nil")

  /** The store after a write and the error the write returned. */
  datatype Write = Write(store: Store, err: Option<Error>)

  /** How gunzipping fails: while reading the header (`gzip.NewReader`, or `Reset` on a pooled
      reader) or while inflating the stream (`io.CopyBuffer`). */
  datatype GunzipError = BadHeader(e: Error) | BadStream(e: Error)

  /** An opaque gzip implementation. */
  datatype Gzip = Gzip(compress: Bytes -> Bytes, decompress: Bytes -> Result<Bytes, GunzipError>)

  /** What the real gzip package guarantees: its output is gzip-framed and inflates back. */
  ghost predicate LawfulGzip(gz: Gzip)
  {
    forall x :: IsGzipped(gz.compress(x)) && gz.decompress(gz.compress(x)) == Success(x)
  }

  /** An opaque msgpack codec for values of type `V`. */
  datatype Codec<!V> = Codec(encode: V -> Result<Bytes, Error>, decode: Bytes -> Result<V, Error>)

  /** What the real codec guarantees: whatever it encodes decodes back to the same value. */
  ghost predicate LawfulCodec<V(!new)>(codec: Codec<V>)
  {
    forall v :: codec.encode(v).Success? ==> codec.decode(codec.encode(v).value) == Success(v)
  }

  /** `isGzipped`: the content starts with the gzip magic. */
  function IsGzipped(b: Bytes): (r: bool)
    ensures r <==> |b| >= |GzipMagic| && b[..|GzipMagic|] == GzipMagic
  {
    if |b| < 3 then false
    else if b[0] != GzipID1 || b[1] != GzipID2 || b[2] != GzipDeflate then false
    else true
  }

  /** `shouldCompress`: larger than the threshold and not gzipped already. */
  predicate ShouldCompress(b: Bytes): (r: bool)
    ensures r <==> |b| > CompressThreshold && b[..|GzipMagic|] != GzipMagic
  {
    |b| > CompressThreshold && !IsGzipped(b)
  }

  /** A SET: replaces whatever `key` held, or changes nothing when the call fails. */
  function Set(store: Store, key: string, value: Bytes, expiration: Duration, fault: Option<Error>): Write
  {
    if fault.Some? then Write(store, fault) else Write(store[key := Entry(value, expiration)], None)
  }

  /** `UpdateCacheBytes`: stores the payload, gzipped when `ShouldCompress` says so. A failure
      of the uncompressed SET is returned as it is; that of the gzipped SET is wrapped. */
  function UpdateCacheBytes(store: Store, key: string, payload: Bytes, expiration: Duration,
                            setFault: Option<Error>, gz: Gzip): (r: Write)
    ensures r.err.Some? <==> setFault.Some?
    ensures r.err.Some? ==> r.store == store
    ensures r.err.Some? && !ShouldCompress(payload) ==> r.err == setFault
    ensures r.err.Some? && ShouldCompress(payload) ==> r.err == Some(Wrap("redis SET gzipped", setFault.value))
    ensures r.err.None? ==> key in r.store && r.store == store[key := r.store[key]]
    ensures r.err.None? ==> r.store[key].expiration == expiration
    ensures r.err.None? && !ShouldCompress(payload) ==> r.store[key].value == payload
    ensures r.err.None? && ShouldCompress(payload) ==> r.store[key].value == gz.compress(payload)
  {
    if !ShouldCompress(payload) then
      Set(store, key, payload, expiration, setFault)
    else
      var compressed := gz.compress(payload);
      var w := Set(store, key, compressed, expiration, setFault);
      if w.err.Some? then Write(w.store, Some(Wrap("redis SET gzipped", w.err.value))) else w
  }

  /** The error `ReadCacheBytes` returns when gunzipping fails: the gzip error, wrapped with
      the step that failed. */
  function GunzipFailure(e: GunzipError, pooledReader: bool): (r: Error)
    ensures r.Wrap? && r.cause == e.e
    ensures r.context == "io.Copy" <==> e.BadStream?
  {
    match e
    case BadHeader(h) => Wrap(if pooledReader then "reader.Reset" else "gzip.NewReader", h)
    case BadStream(s) => Wrap("io.Copy", s)
  }

  /** `ReadCacheBytes`: a GET, gunzipped when the stored bytes carry the gzip magic.
      `pooledReader` says whether the reader pool had a reader to reuse, which only changes
      how a header error is worded. */
  function ReadCacheBytes(store: Store, key: string, getFault: Option<Error>, pooledReader: bool,
                          gz: Gzip): (r: Result<Bytes, Error>)
    ensures getFault.Some? ==> r == Failure(Wrap("redis GET", getFault.value))
    ensures getFault.None? && key !in store ==> r == Failure(Wrap("redis GET", RedisNil))
    ensures r.Success? ==> getFault.None? && key in store
    ensures getFault.None? && key in store && !IsGzipped(store[key].value) ==> r == Success(store[key].value)
    ensures getFault.None? && key in store && IsGzipped(store[key].value) ==>
              (r.Success? <==> gz.decompress(store[key].value).Success?)
              && (r.Success? ==> r.value == gz.decompress(store[key].value).value)
    ensures getFault.None? && key in store && IsGzipped(store[key].value)
            && gz.decompress(store[key].value).Failure? ==>
              r == Failure(GunzipFailure(gz.decompress(store[key].value).error, pooledReader))
  {
    if getFault.Some? then Failure(Wrap("redis GET", getFault.value))
    else if key !in store then Failure(Wrap("redis GET", RedisNil))
    else
      var raw := store[key].value;
      if !IsGzipped(raw) then Success(raw) else Gunzip(raw, pooledReader, gz)
  }

  /** The gunzipping half of `ReadCacheBytes`, with its errors worded as there. */
  function Gunzip(raw: Bytes, pooledReader: bool, gz: Gzip): Result<Bytes, Error>
  {
    match gz.decompress(raw)
    case Success(b) => Success(b)
    case Failure(e) => Failure(GunzipFailure(e, pooledReader))
  }

  /** `UpdateCache`: msgpack-encodes the value, then writes it with `UpdateCacheBytes`. */
  function UpdateCache<V>(store: Store, key: string, payload: V, expiration: Duration,
                          setFault: Option<Error>, gz: Gzip, codec: Codec<V>): (r: Write)
    ensures codec.encode(payload).Failure? ==>
              r == Write(store, Some(Wrap("msgpack encode", codec.encode(payload).error)))
    ensures codec.encode(payload).Success? ==>
              var w := UpdateCacheBytes(store, key, codec.encode(payload).value, expiration, setFault, gz);
              r.store == w.store && (r.err.Some? <==> w.err.Some?)
              && (r.err.Some? ==> r.err == Some(Wrap("UpdateCacheBytes", w.err.value)))
  {
    match codec.encode(payload)
    case Failure(e) => Write(store, Some(Wrap("msgpack encode", e)))
    case Success(buf) =>
      var w := UpdateCacheBytes(store, key, buf, expiration, setFault, gz);
      if w.err.Some? then Write(w.store, Some(Wrap("UpdateCacheBytes", w.err.value))) else w
  }

  /** `ReadCache`: reads the bytes with `ReadCacheBytes`, then msgpack-decodes them. */
  function ReadCache<V>(store: Store, key: string, getFault: Option<Error>, pooledReader: bool,
                        gz: Gzip, codec: Codec<V>): (r: Result<V, Error>)
    ensures var raw := ReadCacheBytes(store, key, getFault, pooledReader, gz);
            && (raw.Failure? ==> r == Failure(Wrap("ReadCacheBytes", raw.error)))
            && (raw.Success? && codec.decode(raw.value).Failure? ==>
                  r == Failure(Wrap("msgpack decoding", codec.decode(raw.value).error)))
            && (raw.Success? && codec.decode(raw.value).Success? ==> r == codec.decode(raw.value))
  {
    match ReadCacheBytes(store, key, getFault, pooledReader, gz)
    case Failure(e) => Failure(Wrap("ReadCacheBytes", e))
    case Success(raw) =>
      match codec.decode(raw)
      case Failure(e) => Failure(Wrap("msgpack decoding", e))
      case Success(v) => Success(v)
  }

  /** A gunzip failure is surfaced, never turned into a miss: unless the gzip error is itself
      `redis.Nil`, neither `ReadCacheBytes` nor `ReadCache` reports one. Both return the
      gzip error wrapped with the step that failed. */
  lemma GunzipFailureIsNoMiss<V>(store: Store, key: string, pooledReader: bool, gz: Gzip, codec: Codec<V>)
    requires key in store && IsGzipped(store[key].value)
    requires gz.decompress(store[key].value).Failure?
    requires !Is(gz.decompress(store[key].value).error.e, RedisNil)
    ensures var ge := GunzipFailure(gz.decompress(store[key].value).error, pooledReader);
            var b := ReadCacheBytes(store, key, None, pooledReader, gz);
            var r := ReadCache(store, key, None, pooledReader, gz, codec);
            && b == Failure(ge) && !Is(b.error, RedisNil)
            && r == Failure(Wrap("ReadCacheBytes", ge)) && !Is(r.error, RedisNil)
  {
    var ge := GunzipFailure(gz.decompress(store[key].value).error, pooledReader);
    assert !Is(ge, RedisNil);
    assert !Is(Wrap("ReadCacheBytes", ge), RedisNil);
  }

  /** Redis's reply to an UNLINK that names no key: the command needs at least one. */
  const UnlinkArityError: Error := New("ERR wrong number of arguments for 'unlink' command")

  /** `RevokeCache`: one UNLINK of all given keys; a key that is not there is no error. The
      keys go to the server unchecked, so an empty list is sent and rejected there. */
  function RevokeCache(store: Store, keys: seq<string>, fault: Option<Error>): (r: Write)
    ensures fault.Some? ==> r == Write(store, Some(Wrap("redis Unlink", fault.value)))
    ensures fault.None? && |keys| == 0 ==> r == Write(store, Some(Wrap("redis Unlink", UnlinkArityError)))
    ensures fault.None? && |keys| > 0 ==> r.err.None?
    ensures fault.None? && |keys| > 0 ==> forall k :: k in r.store <==> k in store && k !in keys
    ensures forall k :: k in r.store ==> k in store && r.store[k] == store[k]
  {
    if fault.Some? then Write(store, Some(Wrap("redis Unlink", fault.value)))
    else if |keys| == 0 then Write(store, Some(Wrap("redis Unlink", UnlinkArityError)))
    else Write(Unlink(store, keys), None)
  }

  /** The keyspace after a successful UNLINK of `keys`. */
  function Unlink(store: Store, keys: seq<string>): Store
  {
    store - (set k | k in keys)
  }

  /** Never double-compress: after a successful `UpdateCacheBytes` the stored bytes are
      gzip-framed exactly when the payload was longer than 4096 bytes or framed already,
      and a payload of at most 4096 bytes is stored verbatim. */
  lemma StoredFraming(store: Store, key: string, payload: Bytes, expiration: Duration, gz: Gzip)
    requires LawfulGzip(gz)
    ensures var w := UpdateCacheBytes(store, key, payload, expiration, None, gz);
            && (IsGzipped(w.store[key].value) <==> |payload| > CompressThreshold || IsGzipped(payload))
            && (|payload| <= CompressThreshold ==> w.store[key].value == payload)
  {
    if ShouldCompress(payload) {
      assert IsGzipped(gz.compress(payload));
    }
  }

  /** Round trip of the byte layer: reading a key back after a successful `UpdateCacheBytes`
      gives the payload when it was not gzip-framed, and gunzips a payload that was (such a
      payload is stored as it is). */
  lemma BytesRoundTrip(store: Store, key: string, payload: Bytes, expiration: Duration,
                       setFault: Option<Error>, pooledReader: bool, gz: Gzip)
    requires LawfulGzip(gz)
    requires UpdateCacheBytes(store, key, payload, expiration, setFault, gz).err.None?
    ensures var w := UpdateCacheBytes(store, key, payload, expiration, setFault, gz);
            var got := ReadCacheBytes(w.store, key, None, pooledReader, gz);
            && (!IsGzipped(payload) ==> got == Success(payload))
            && (IsGzipped(payload) ==> got == Gunzip(payload, pooledReader, gz))
  {
    var w := UpdateCacheBytes(store, key, payload, expiration, setFault, gz);
    if ShouldCompress(payload) {
      var c := gz.compress(payload);
      assert IsGzipped(c) && gz.decompress(c) == Success(payload);
      assert w.store[key].value == c;
    }
  }

  /** Round trip of the value layer: after a successful `UpdateCache` of `v`, `ReadCache`
      decodes to `v`. A msgpack encoding of one value that starts with 0x1f is the one-byte
      fixint 31, so real encodings are never gzip-framed; the abstract codec is asked for it. */
  lemma CacheRoundTrip<V(!new)>(store: Store, key: string, v: V, expiration: Duration,
                                setFault: Option<Error>, pooledReader: bool, gz: Gzip, codec: Codec<V>)
    requires LawfulGzip(gz) && LawfulCodec(codec)
    requires codec.encode(v).Success? ==> !IsGzipped(codec.encode(v).value)
    requires UpdateCache(store, key, v, expiration, setFault, gz, codec).err.None?
    ensures var w := UpdateCache(store, key, v, expiration, setFault, gz, codec);
            ReadCache(w.store, key, None, pooledReader, gz, codec) == Success(v)
            && w.store[key].expiration == expiration
  {
    var buf := codec.encode(v).value;
    BytesRoundTrip(store, key, buf, expiration, setFault, pooledReader, gz);
    assert codec.decode(buf) == Success(v);
  }

  /** Revoking is idempotent: a second identical `RevokeCache` ends as the first did. With
      keys it succeeds and changes nothing; with none both are rejected alike. */
  lemma RevokeIdempotent(store: Store, keys: seq<string>)
    ensures var once := RevokeCache(store, keys, None);
            RevokeCache(once.store, keys, None) == once
  {
    var once := RevokeCache(store, keys, None);
    var twice := RevokeCache(once.store, keys, None);
    assert twice.store == once.store;
  }

  /** After a successful `RevokeCache` naming `key`, a read of `key` is a
      miss reported as `redis.Nil`, never a hit. */
  lemma ReadAfterRevokeMisses<V>(store: Store, keys: seq<string>, key: string, pooledReader: bool,
                                 gz: Gzip, codec: Codec<V>)
    requires key in keys
    ensures var r := ReadCache(RevokeCache(store, keys, None).store, key, None, pooledReader, gz, codec);
            r.Failure? && Is(r.error, RedisNil)
  {
  }

  /** The gzip law can be met: for instance by a "compressor" that only prepends the magic. */
  lemma GzipLawSatisfiable()
    ensures exists gz :: LawfulGzip(gz)
  {
    var gz := Gzip(x => GzipMagic + x, b => if IsGzipped(b) then Success(b[3..]) else Failure(BadHeader(New("gzip: invalid header"))));
    forall x
      ensures IsGzipped(gz.compress(x)) && gz.decompress(gz.compress(x)) == Success(x)
    {
      var c := GzipMagic + x;
      assert gz.compress(x) == c;
      assert c[..3] == GzipMagic;
      assert c[3..] == x;
    }
    assert LawfulGzip(gz);
  }

  /** The codec law can be met: for instance by tagging a byte string with one header byte. */
  lemma CodecLawSatisfiable()
    ensures exists codec: Codec<Bytes> :: LawfulCodec(codec)
  {
    var codec: Codec<Bytes> := Codec(v => Success([0xc4 as bv8] + v),
                                     b => if |b| > 0 then Success(b[1..]) else Failure(New("EOF")));
    forall v
      ensures codec.encode(v).Success? ==> codec.decode(codec.encode(v).value) == Success(v)
    {
      assert ([0xc4 as bv8] + v)[1..] == v;
    }
    assert LawfulCodec(codec);
  }
}

=== FILE: cache_revoke.dfy ===
/** `RevokeCacheByPattern` of cache/cache_aside.go: a SCAN over the keys matching a glob,
    with the matching keys UNLINKed in batches.

    The SCAN cursor and Redis's glob matching are server-side; they are given as `scanned`,
    the keys the iterator yields before it stops, and `iterErr`, the error it stops with,
    if any. `fault(b)` is the failure, if any, of the b-th UNLINK call. */
module CacheRevoke {
  import opened Wrappers
  import opened Errors
  import opened CacheAside

  /** The source flushes once its counter passes 1000 (`i > 1000`), so every 1001 keys. */
  const AsWrittenBatch: nat := 1001
  /** The batch size the source's comment announces: "for every 1000 keys". */
  const IntendedBatch: nat := 1000

  /** The keyspace afterwards, the UNLINK calls issued in order, and the error returned. */
  datatype PatternRevoke = PatternRevoke(store: Store, unlinked: seq<seq<string>>, err: Option<Error>)

  /** The full batches of `n` keys that `s` splits into, in order. */
  function Chunks(s: seq<string>, n: nat): seq<seq<string>>
    requires n > 0
    decreases |s|
  {
    if |s| < n then [] else [s[..n]] + Chunks(s[n..], n)
  }

  /** What is left of `s` after its full batches of `n` keys. */
  function Tail(s: seq<string>, n: nat): seq<string>
    requires n > 0
    decreases |s|
  {
    if |s| < n then s else Tail(s[n..], n)
  }

  function Flatten(bs: seq<seq<string>>): seq<string>
  {
    if |bs| == 0 then [] else bs[0] + Flatten(bs[1..])
  }

  /** The index of the first failing UNLINK among the first `count`, or `count` if none fails. */
  function FirstFault(fault: nat -> Option<Error>, count: nat): (j: nat)
    ensures j <= count
    ensures forall b :: 0 <= b < j ==> fault(b).None?
    ensures j < count ==> fault(j).Some?
  {
    FirstFaultFrom(fault, 0, count)
  }

  function FirstFaultFrom(fault: nat -> Option<Error>, from: nat, count: nat): (j: nat)
    requires from <= count
    ensures from <= j <= count
    ensures forall b :: from <= b < j ==> fault(b).None?
    ensures j < count ==> fault(j).Some?
    decreases count - from
  {
    if from == count || fault(from).Some? then from else FirstFaultFrom(fault, from + 1, count)
  }

  /** The reference outcome: full batches go out in order until one fails; then, unless the
      iterator failed, the remaining keys go out in one last call. */
  function Expected(store: Store, scanned: seq<string>, iterErr: Option<Error>,
                    fault: nat -> Option<Error>, n: nat): PatternRevoke
    requires n > 0
  {
    var full := Chunks(scanned, n);
    var tail := Tail(scanned, n);
    var j := FirstFault(fault, |full|);
    if j < |full| then
      PatternRevoke(Unlink(store, Flatten(full[..j])), full[..j + 1],
                    Some(Wrap("redis Unlink in scan loop", fault(j).value)))
    else if iterErr.Some? then
      PatternRevoke(Unlink(store, Flatten(full)), full, Some(Wrap("iter.Err", iterErr.value)))
    else if |tail| == 0 then
      PatternRevoke(Unlink(store, Flatten(full)), full, None)
    else if fault(|full|).Some? then
      PatternRevoke(Unlink(store, Flatten(full)), full + [tail],
                    Some(Wrap("redis Unlink after scan finish", fault(|full|).value)))
    else
      PatternRevoke(Unlink(store, Flatten(full) + tail), full + [tail], None)
  }

  /** The scan-and-delete loop, flushing whenever `n` keys are pending. The source's test
      `i > 1000` is `i >= n` with `n == 1001`. */
  method RevokeByPatternBatched(store: Store, scanned: seq<string>, iterErr: Option<Error>,
                                fault: nat -> Option<Error>, n: nat) returns (r: PatternRevoke)
    requires n > 0
    ensures r == Expected(store, scanned, iterErr, fault, n)
  {
    var keys: seq<string> := [];
    var i: nat := 0;
    var cur := store;
    var sent: seq<seq<string>> := [];
    var m := 0;
    while m < |scanned|
      invariant 0 <= m <= |scanned|
      invariant sent == Chunks(scanned[..m], n)
      invariant keys == Tail(scanned[..m], n)
      invariant i == |keys| < n
      invariant cur == Unlink(store, Flatten(sent))
      invariant forall b :: 0 <= b < |sent| ==> fault(b).None?
    {
      assert scanned[..m + 1] == scanned[..m] + [scanned[m]];
      ChunksSnoc(scanned[..m], scanned[m], n);
      keys := keys + [scanned[m]];
      i := i + 1;
      if i >= n {
        i := 0;
        var f := fault(|sent|);
        var before := sent;
        sent := sent + [keys];
        if f.Some? {
          FaultInLoop(store, scanned, iterErr, fault, n, m + 1, before, keys);
          return PatternRevoke(cur, sent, Some(Wrap("redis Unlink in scan loop", f.value)));
        }
        UnlinkTwice(store, Flatten(before), keys);
        FlattenSnoc(before, keys);
        cur := Unlink(cur, keys);
        keys := [];
      }
      m := m + 1;
    }
    assert scanned[..m] == scanned;
    FirstFaultIs(fault, |sent|, |sent|);
    if iterErr.Some? {
      return PatternRevoke(cur, sent, Some(Wrap("iter.Err", iterErr.value)));
    }
    if |keys| > 0 {
      var f := fault(|sent|);
      if f.Some? {
        return PatternRevoke(cur, sent + [keys], Some(Wrap("redis Unlink after scan finish", f.value)));
      }
      UnlinkTwice(store, Flatten(sent), keys);
      cur := Unlink(cur, keys);
      sent := sent + [keys];
    }
    r := PatternRevoke(cur, sent, None);
  }

  /** A failing UNLINK inside the loop, after the batches `before` went out, ends the run
      exactly as the reference outcome says. */
  lemma FaultInLoop(store: Store, scanned: seq<string>, iterErr: Option<Error>,
                    fault: nat -> Option<Error>, n: nat, m: nat,
                    before: seq<seq<string>>, keys: seq<string>)
    requires n > 0 && m <= |scanned|
    requires before + [keys] == Chunks(scanned[..m], n)
    requires forall b :: 0 <= b < |before| ==> fault(b).None?
    requires fault(|before|).Some?
    ensures Expected(store, scanned, iterErr, fault, n)
              == PatternRevoke(Unlink(store, Flatten(before)), before + [keys],
                               Some(Wrap("redis Unlink in scan loop", fault(|before|).value)))
  {
    ChunksPrefix(scanned, m, |scanned|, n);
    assert scanned[..|scanned|] == scanned;
    var full := Chunks(scanned, n);
    FirstFaultIs(fault, |before|, |full|);
    assert full[..|before|] == before;
    assert full[..|before| + 1] == before + [keys];
  }

  /** `RevokeCacheByPattern` as written: batches of 1001 keys. */
  method RevokeCacheByPattern(store: Store, scanned: seq<string>, iterErr: Option<Error>,
                              fault: nat -> Option<Error>) returns (r: PatternRevoke)
    ensures r == Expected(store, scanned, iterErr, fault, AsWrittenBatch)
  {
    r := RevokeByPatternBatched(store, scanned, iterErr, fault, AsWrittenBatch);
  }

  /** `RevokeCacheByPattern` with the batch size its comment intends: no UNLINK call carries
      more than 1000 keys, and a run without errors unlinks exactly the scanned keys. */
  method RevokeCacheByPatternIntended(store: Store, scanned: seq<string>, iterErr: Option<Error>,
                                      fault: nat -> Option<Error>) returns (r: PatternRevoke)
    ensures r == Expected(store, scanned, iterErr, fault, IntendedBatch)
    ensures forall b :: 0 <= b < |r.unlinked| ==> 0 < |r.unlinked[b]| <= IntendedBatch
    ensures r.err.None? ==> Flatten(r.unlinked) == scanned && r.store == Unlink(store, scanned)
  {
    r := RevokeByPatternBatched(store, scanned, iterErr, fault, IntendedBatch);
    BatchSizes(store, scanned, iterErr, fault, IntendedBatch);
    SuccessUnlinksScan(store, scanned, iterErr, fault, IntendedBatch);
  }

  // ---------------------------------------------------------------------------------------
  // Properties of the reference outcome.

  /** Every UNLINK carries 1 to `n` keys, and every call but the last carries exactly `n`. */
  lemma BatchSizes(store: Store, scanned: seq<string>, iterErr: Option<Error>,
                   fault: nat -> Option<Error>, n: nat)
    requires n > 0
    ensures var r := Expected(store, scanned, iterErr, fault, n);
            && (forall b :: 0 <= b < |r.unlinked| ==> 0 < |r.unlinked[b]| <= n)
            && (forall b :: 0 <= b < |r.unlinked| - 1 ==> |r.unlinked[b]| == n)
  {
    ChunksShape(scanned, n);
  }

  /** A run without errors unlinks the scanned keys, all of them and in scan order. */
  lemma SuccessUnlinksScan(store: Store, scanned: seq<string>, iterErr: Option<Error>,
                           fault: nat -> Option<Error>, n: nat)
    requires n > 0
    ensures var r := Expected(store, scanned, iterErr, fault, n);
            r.err.None? ==> Flatten(r.unlinked) == scanned && r.store == Unlink(store, scanned)
  {
    var full := Chunks(scanned, n);
    var tail := Tail(scanned, n);
    ChunksShape(scanned, n);
    FlattenSnoc(full, tail);
    assert Flatten(full) + [] == Flatten(full);
  }

  /** When the iterator fails, the run reports it and the pending keys are never sent: only
      full batches went out. */
  lemma IterErrorKeepsTail(store: Store, scanned: seq<string>, iterErr: Option<Error>,
                           fault: nat -> Option<Error>, n: nat)
    requires n > 0
    requires iterErr.Some?
    ensures var r := Expected(store, scanned, iterErr, fault, n);
            r.err.Some? && r.unlinked <= Chunks(scanned, n)
  {
  }

  /** When an UNLINK fails, the run stops there: the keyspace has lost exactly the keys of the
      calls before it, and every later key is untouched. */
  lemma UnlinkFailureStops(store: Store, scanned: seq<string>, iterErr: Option<Error>,
                           fault: nat -> Option<Error>, n: nat)
    requires n > 0
    ensures var r := Expected(store, scanned, iterErr, fault, n);
            var last := |r.unlinked| - 1;
            last >= 0 && fault(last).Some? && r.err.Some? ==>
              r.store == Unlink(store, Flatten(r.unlinked[..last]))
  {
    var full := Chunks(scanned, n);
    var j := FirstFault(fault, |full|);
    if j < |full| {
      assert full[..j + 1][..j] == full[..j];
    } else {
      assert (full + [Tail(scanned, n)])[..|full|] == full;
    }
  }

  /** The keys a run removes are always a prefix of the scan. */
  lemma RemovedIsScanPrefix(store: Store, scanned: seq<string>, iterErr: Option<Error>,
                            fault: nat -> Option<Error>, n: nat) returns (gone: seq<string>)
    requires n > 0
    ensures gone <= scanned
    ensures Expected(store, scanned, iterErr, fault, n).store == Unlink(store, gone)
  {
    var full := Chunks(scanned, n);
    var tail := Tail(scanned, n);
    ChunksShape(scanned, n);
    var j := FirstFault(fault, |full|);
    if j < |full| {
      FlattenPrefix(full, j);
      gone := Flatten(full[..j]);
    } else if iterErr.Some? || |tail| == 0 || fault(|full|).Some? {
      gone := Flatten(full);
    } else {
      gone := Flatten(full) + tail;
    }
  }

  /** Keys the scan did not yield keep their values, whatever happens. */
  lemma NonMatchingUntouched(store: Store, scanned: seq<string>, iterErr: Option<Error>,
                             fault: nat -> Option<Error>, n: nat, k: string)
    requires n > 0
    requires k in store && k !in scanned
    ensures var r := Expected(store, scanned, iterErr, fault, n);
            k in r.store && r.store[k] == store[k]
  {
    var gone := RemovedIsScanPrefix(store, scanned, iterErr, fault, n);
  }

  /** As written, 1001 matching keys go out in a single UNLINK of 1001 keys, one more than
      the 1000 the source's comment promises. */
  lemma AsWrittenSendsBatchOf1001(store: Store, scanned: seq<string>)
    requires |scanned| == 1001
    ensures var r := Expected(store, scanned, None, _ => None, AsWrittenBatch);
            r.unlinked == [scanned] && |r.unlinked[0]| == 1001 > IntendedBatch && r.err.None?
  {
    assert scanned[..1001] == scanned;
    assert Chunks(scanned[1001..], 1001) == [];
    assert Chunks(scanned, 1001) == [scanned];
    assert Tail(scanned, 1001) == [];
    assert FirstFault(_ => None, 1) == 1;
  }

  // ---------------------------------------------------------------------------------------
  // Helper lemmas about batching.

  lemma {:induction false} ChunksSnoc(s: seq<string>, x: string, n: nat)
    requires n > 0
    ensures |Tail(s, n)| < n
    ensures |Tail(s, n)| + 1 < n ==> Chunks(s + [x], n) == Chunks(s, n) && Tail(s + [x], n) == Tail(s, n) + [x]
    ensures |Tail(s, n)| + 1 == n ==> Chunks(s + [x], n) == Chunks(s, n) + [Tail(s, n) + [x]] && Tail(s + [x], n) == []
    decreases |s|
  {
    if |s| < n {
      if |s| + 1 == n {
        assert (s + [x])[..n] == s + [x];
        assert (s + [x])[n..] == [];
      }
    } else {
      assert (s + [x])[..n] == s[..n];
      assert (s + [x])[n..] == s[n..] + [x];
      ChunksSnoc(s[n..], x, n);
    }
  }

  lemma {:induction false} ChunksPrefix(s: seq<string>, m: nat, k: nat, n: nat)
    requires m <= k <= |s|
    requires n > 0
    ensures Chunks(s[..m], n) <= Chunks(s[..k], n)
    decreases k - m
  {
    if m < k {
      ChunksPrefix(s, m, k - 1, n);
      assert s[..k] == s[..k - 1] + [s[k - 1]];
      ChunksSnoc(s[..k - 1], s[k - 1], n);
    }
  }

  /** Every full batch has `n` keys, the tail fewer, and together they are `s`. */
  lemma ChunksShape(s: seq<string>, n: nat)
    requires n > 0
    ensures forall b :: 0 <= b < |Chunks(s, n)| ==> |Chunks(s, n)[b]| == n
    ensures |Tail(s, n)| < n
    ensures Flatten(Chunks(s, n)) + Tail(s, n) == s
  {
    ChunksSizes(s, n);
    ChunksCover(s, n);
  }

  lemma {:induction false} ChunksSizes(s: seq<string>, n: nat)
    requires n > 0
    ensures forall b :: 0 <= b < |Chunks(s, n)| ==> |Chunks(s, n)[b]| == n
    decreases |s|
  {
    if |s| >= n {
      ChunksSizes(s[n..], n);
      var rest := Chunks(s[n..], n);
      assert Chunks(s, n) == [s[..n]] + rest;
      assert forall b :: 0 < b < |Chunks(s, n)| ==> Chunks(s, n)[b] == rest[b - 1];
    }
  }

  lemma {:induction false} ChunksCover(s: seq<string>, n: nat)
    requires n > 0
    ensures |Tail(s, n)| < n
    ensures Flatten(Chunks(s, n)) + Tail(s, n) == s
    decreases |s|
  {
    if |s| >= n {
      ChunksCover(s[n..], n);
      var rest := Chunks(s[n..], n);
      assert ([s[..n]] + rest)[1..] == rest;
      assert Flatten(Chunks(s, n)) == s[..n] + Flatten(rest);
      assert s == s[..n] + s[n..];
    }
  }

  lemma {:induction false} FlattenSnoc(bs: seq<seq<string>>, last: seq<string>)
    ensures Flatten(bs + [last]) == Flatten(bs) + last
  {
    if |bs| > 0 {
      assert (bs + [last])[1..] == bs[1..] + [last];
      FlattenSnoc(bs[1..], last);
    }
  }

  /** A prefix of the batches flattens to a prefix of their concatenation. */
  lemma {:induction false} FlattenPrefix(bs: seq<seq<string>>, k: nat)
    requires k <= |bs|
    ensures Flatten(bs[..k]) <= Flatten(bs)
    decreases k
  {
    if k > 0 {
      FlattenPrefix(bs[1..], k - 1);
      assert bs[..k][1..] == bs[1..][..k - 1];
    }
  }

  lemma FirstFaultIs(fault: nat -> Option<Error>, j: nat, count: nat)
    requires j <= count
    requires forall b :: 0 <= b < j ==> fault(b).None?
    requires j < count ==> fault(j).Some?
    ensures FirstFault(fault, count) == j
  {
  }

  lemma UnlinkTwice(store: Store, a: seq<string>, b: seq<string>)
    ensures Unlink(Unlink(store, a), b) == Unlink(store, a + b)
  {
    assert (set k | k in a + b) == (set k | k in a) + (set k | k in b);
  }
}

=== FILE: errorcode.dfy ===
/** The API error type of errorcode/errors.go and its business codes. */
module ErrorCode {

  /** Normal or unclassified error. */
  const CodeGeneralError: int := 1
  /** Request binding failed. */
  const CodeBadBinding: int := 600001
  /** Invalid token, the umbrella error shown to the public. */
  const CodeUnauthorized: int := 600401

  /** HTTP 403, the status `ErrUnauthorized` carries. */
  const StatusForbidden: int := 403

  /** `errorcode.Error`: its three fields are private and set only by `NewError`. */
  datatype ApiError = ApiError(statusCode: int, code: int, message: string)
  {
    /** `Code()`: the business layer code. */
    function Code(): int { code }

    /** `StatusCode()`: the HTTP status code. */
    function StatusCode(): int { statusCode }

    /** `Error()`: the message, which is the whole error text. */
    function Error(): string { message }
  }

  /** `newError(statusCode, code, message)`. */
  function NewError(statusCode: int, code: int, message: string): (e: ApiError)
    ensures e.Code() == code && e.StatusCode() == statusCode && e.Error() == message
  {
    ApiError(statusCode, code, message)
  }

  /** `ErrUnauthorized`, built once at package initialisation. */
  const ErrUnauthorized: ApiError := NewError(StatusForbidden, CodeUnauthorized, "Unauthorized")

  /** The accessors determine the error: rebuilding from them gives back the same value,
      and two errors with equal accessors are equal (there is no hidden state to mutate). */
  lemma AccessorsDetermineError(e: ApiError, f: ApiError)
    ensures NewError(e.StatusCode(), e.Code(), e.Error()) == e
    ensures e.Code() == f.Code() && e.StatusCode() == f.StatusCode() && e.Error() == f.Error() ==> e == f
  {
  }

  /** `ErrUnauthorized` is a 403 with code 600401 and text "Unauthorized". */
  lemma ErrUnauthorizedFields()
    ensures ErrUnauthorized.StatusCode() == 403
    ensures ErrUnauthorized.Code() == 600401
    ensures ErrUnauthorized.Error() == "Unauthorized"
  {
  }

  /** The three code constants are distinct, so a code identifies its class. */
  lemma CodesDistinct()
    ensures CodeGeneralError == 1 && CodeBadBinding == 600001 && CodeUnauthorized == 600401
    ensures CodeGeneralError != CodeBadBinding
    ensures CodeGeneralError != CodeUnauthorized
    ensures CodeBadBinding != CodeUnauthorized
  {
  }
}

=== FILE: errors.dfy ===
/** Go's error values as the core uses them: leaves made by `errors.New` or a `fmt.Errorf`
    without `%w`, wrappers made by `fmt.Errorf("<context>: %w", cause)`, and `*errorcode.Error`. */
module Errors {
  import opened Wrappers
  import ErrorCode

  datatype Error =
    | New(text: string)
    | Wrap(context: string, cause: Error)
    | Api(api: ErrorCode.ApiError)

  /** `err.Error()`: a wrapper prints its context, a colon and a space, then its cause. */
  function Text(e: Error): string
  {
    match e
    case New(t) => t
    case Wrap(c, cause) => c + ": " + Text(cause)
    case Api(a) => a.Error()
  }

  /** `errors.Is(e, target)`: `target` is `e` itself or found by unwrapping `e`. Errors are
      compared as values, where Go compares `*errorString` and `*wrapError` by pointer; the
      targets used here are the string-typed `redis.Nil` and `Api` errors matched by type,
      for which the two agree. */
  predicate Is(e: Error, target: Error)
  {
    e == target || (e.Wrap? && Is(e.cause, target))
  }

  /** `errors.As(e, &apiErr)` for a target of type `*errorcode.Error`: the API error found
      by unwrapping `e`, if any. An API error has no cause, so the chain holds at most one. */
  function As(e: Error): (r: Option<ErrorCode.ApiError>)
    ensures forall a :: Is(e, Api(a)) <==> r == Some(a)
  {
    match e
    case New(_) => None
    case Wrap(_, cause) => As(cause)
    case Api(a) => Some(a)
  }

  /** `%d` formatting of a Go `int`. */
  function FormatInt(i: int): string
  {
    if i < 0 then "-" + FormatNat(-i) else FormatNat(i)
  }

  function FormatNat(n: nat): string
  {
    if n < 10 then [DigitChar(n)] else FormatNat(n / 10) + [DigitChar(n % 10)]
  }

  function DigitChar(d: nat): char
    requires d < 10
  {
    "0123456789"[d]
  }
}

=== FILE: limit_reader.dfy ===
/** The length-limited reader of limitreader/limitreader.go.

    The wrapped `io.Reader` is external: one call to it is modelled by `Inner`, the answer it
    gives when offered a buffer of a given length. A run is a sequence of `Read` calls, each
    with its buffer length and the inner reader's behaviour at that moment. */
module LimitReader {
  import opened Wrappers
  import opened Errors

  /** The reader's state: bytes still allowed, and the limit it started with. */
  datatype Reader = Reader(left: int, originalLimit: int)

  /** `ReadCloser` embeds the wrapped `io.ReadCloser` (for `Close`) and a `*Reader`. */
  datatype ReadCloser = ReadCloser(reader: Reader)

  /** The wrapped reader's answer to one call: bytes read and the error returned. */
  datatype InnerAnswer = InnerAnswer(n: int, err: Option<Error>)
  type Inner = nat -> InnerAnswer

  /** The outcome of one `Read`: the new state, the returned `(n, err)`, and the buffer
      length offered to the wrapped reader, `None` when it was not called. */
  datatype ReadResult = ReadResult(next: Reader, n: int, err: Option<Error>, offered: Option<nat>)

  /** A wrapped reader that honours `io.Reader`'s contract on counts: `0 <= n <= len(p)`. */
  ghost predicate Honest(inner: Inner)
  {
    forall k: nat :: 0 <= inner(k).n <= k
  }

  /** The error `Read` returns once the limit has been overrun. */
  function TooBig(originalLimit: int): Error
  {
    New("stream bigger than threshold " + FormatInt(originalLimit) + " bytes")
  }

  /** `NewReader(r, limit)`. */
  function NewReader(limit: int): (lr: Reader)
    ensures lr.left == limit && lr.originalLimit == limit
  {
    Reader(limit, limit)
  }

  /** `Reader.Read(p)` with `len(p) == pLen`. */
  function Read(lr: Reader, pLen: nat, inner: Inner): (r: ReadResult)
    ensures r.next.originalLimit == lr.originalLimit
    ensures lr.left < 0 ==> r == ReadResult(lr, 0, Some(TooBig(lr.originalLimit)), None)
    ensures lr.left >= 0 ==>
              && r.offered.Some?
              && r.offered.value <= pLen && r.offered.value <= lr.left
              && (r.offered.value == pLen || r.offered.value == lr.left)
              && InnerAnswer(r.n, r.err) == inner(r.offered.value)
              && r.next.left == lr.left - r.n
  {
    if lr.left < 0 then ReadResult(lr, 0, Some(TooBig(lr.originalLimit)), None)
    else
      var offered: nat := if pLen > lr.left then lr.left else pLen;
      var answer := inner(offered);
      ReadResult(Reader(lr.left - answer.n, lr.originalLimit), answer.n, answer.err, Some(offered))
  }

  /** `NewReadCloser(r, left)`. */
  function NewReadCloser(left: int): (rc: ReadCloser)
    ensures rc.reader == NewReader(left)
  {
    ReadCloser(NewReader(left))
  }

  /** `ReadCloser.Read(p)`: the embedded `Reader` does the work and keeps the count. */
  function ReadCloserRead(rc: ReadCloser, pLen: nat, inner: Inner): (r: (ReadCloser, ReadResult))
    ensures r.0.reader == r.1.next
    ensures r.1 == Read(rc.reader, pLen, inner)
  {
    var res := Read(rc.reader, pLen, inner);
    (ReadCloser(res.next), res)
  }

  /** One call in a run: the buffer length and how the wrapped reader answers. */
  datatype Call = Call(pLen: nat, inner: Inner)

  /** The state after a run of calls, and the bytes they returned in all. */
  datatype Progress = Progress(reader: Reader, delivered: int, overrun: bool)

  function RunCalls(lr: Reader, calls: seq<Call>): Progress
    decreases |calls|
  {
    if |calls| == 0 then Progress(lr, 0, false)
    else
      var r := Read(lr, calls[0].pLen, calls[0].inner);
      var rest := RunCalls(r.next, calls[1..]);
      Progress(rest.reader, r.n + rest.delivered, rest.overrun || r.offered.None?)
  }

  ghost predicate AllHonest(calls: seq<Call>)
  {
    forall i :: 0 <= i < |calls| ==> Honest(calls[i].inner)
  }

  /** The count is exact: whatever the wrapped reader does, the bytes returned over a run
      are the drop in `left`. */
  lemma {:induction false} DeliveredIsDrop(lr: Reader, calls: seq<Call>)
    ensures var p := RunCalls(lr, calls);
            p.delivered == lr.left - p.reader.left && p.reader.originalLimit == lr.originalLimit
    decreases |calls|
  {
    if |calls| > 0 {
      var r := Read(lr, calls[0].pLen, calls[0].inner);
      DeliveredIsDrop(r.next, calls[1..]);
    }
  }

  /** With a non-negative limit and a wrapped reader that honours `len(p)`, `left` stays
      within `[0, limit]`, no more than `limit` bytes are ever returned, and the "stream
      bigger than threshold" error never happens. */
  lemma {:induction false} HonestRunStaysInLimit(lr: Reader, calls: seq<Call>)
    requires 0 <= lr.left <= lr.originalLimit
    requires AllHonest(calls)
    ensures var p := RunCalls(lr, calls);
            && 0 <= p.reader.left <= lr.left
            && 0 <= p.delivered <= lr.left
            && !p.overrun
    decreases |calls|
  {
    if |calls| > 0 {
      var r := Read(lr, calls[0].pLen, calls[0].inner);
      assert Honest(calls[0].inner);
      var k := r.offered.value;
      assert 0 <= calls[0].inner(k).n <= k;
      assert AllHonest(calls[1..]) by {
        forall i | 0 <= i < |calls[1..]|
          ensures Honest(calls[1..][i].inner)
        {
          assert calls[1..][i] == calls[i + 1];
        }
      }
      HonestRunStaysInLimit(r.next, calls[1..]);
    }
  }

  /** From a fresh reader with a non-negative limit and honest wrapped readers, a run
      returns at most `limit` bytes and never reports an overrun. */
  lemma FreshReaderNeverOverruns(limit: int, calls: seq<Call>)
    requires limit >= 0
    requires AllHonest(calls)
    ensures var p := RunCalls(NewReader(limit), calls);
            0 <= p.delivered <= limit && p.delivered == limit - p.reader.left && !p.overrun
  {
    HonestRunStaysInLimit(NewReader(limit), calls);
    DeliveredIsDrop(NewReader(limit), calls);
  }

  // ---------------------------------------------------------------------------------------
  // The overrun error as written, and a reader that reports it.

  /** As written, a stream longer than the limit is never reported by an honest wrapped
      reader: once `left` is 0, `Read` offers it an empty buffer and returns its answer, so
      a reader with more data still to give answers `(0, nil)` and the call neither makes
      progress nor fails. */
  lemma AsWrittenStallsAtLimit(limit: int, pLen: nat, inner: Inner)
    requires limit >= 0 && pLen > 0
    requires inner(0) == InnerAnswer(0, None)
    ensures var r := Read(Reader(0, limit), pLen, inner);
            r == ReadResult(Reader(0, limit), 0, None, Some(0))
  {
  }

  /** The counterexample in figures: a one-byte limit over a two-byte stream. After the one
      byte allowed, every further `Read` returns `(0, nil)`. */
  lemma AsWrittenNeverRejectsLongStream()
    ensures var inner: Inner := k => InnerAnswer(if k == 0 then 0 else 1, None);
            var first := Read(NewReader(1), 512, inner);
            var second := Read(first.next, 512, inner);
            && first.n == 1 && first.err.None?
            && second.n == 0 && second.err.None? && second.next == first.next
  {
  }

  /** What the overrun error is evidently for: like `http.MaxBytesReader`, offer the wrapped
      reader one byte more than may still be delivered, and report the overrun as soon as
      it hands that byte over. */
  function ReadIntended(lr: Reader, pLen: nat, inner: Inner): (r: ReadResult)
    ensures r.next.originalLimit == lr.originalLimit
    ensures lr.left < 0 ==> r == ReadResult(lr, 0, Some(TooBig(lr.originalLimit)), None)
    ensures lr.left >= 0 ==> r.offered.Some? && r.offered.value <= pLen && r.offered.value <= lr.left + 1
    ensures lr.left >= 0 ==> r.n <= lr.left
    ensures lr.left >= 0 && r.err != Some(TooBig(lr.originalLimit)) ==>
              InnerAnswer(r.n, r.err) == inner(r.offered.value) && r.next.left == lr.left - r.n
    ensures lr.left >= 0 && r.offered.Some? && inner(r.offered.value).n > lr.left ==>
              r.err == Some(TooBig(lr.originalLimit)) && r.next.left < 0
  {
    if lr.left < 0 then ReadResult(lr, 0, Some(TooBig(lr.originalLimit)), None)
    else
      var offered: nat := if pLen > lr.left + 1 then lr.left + 1 else pLen;
      var answer := inner(offered);
      if answer.n > lr.left then
        ReadResult(Reader(-1, lr.originalLimit), lr.left, Some(TooBig(lr.originalLimit)), Some(offered))
      else
        ReadResult(Reader(lr.left - answer.n, lr.originalLimit), answer.n, answer.err, Some(offered))
  }

  /** The corrected reader rejects a stream that goes past the limit: with `left` bytes still
      allowed, a buffer larger than that and a wrapped reader that fills the offered
      buffer, it returns the `left` bytes allowed and the overrun error, where the reader as
      written returns the bytes and no error. */
  lemma IntendedRejectsLongStream(lr: Reader, pLen: nat, inner: Inner)
    requires lr.left >= 0 && pLen > lr.left
    requires Honest(inner)
    requires inner(lr.left + 1).n == lr.left + 1 && inner(lr.left).n == lr.left
    requires inner(lr.left).err.None?
    ensures var r := ReadIntended(lr, pLen, inner);
            r.n == lr.left && r.err == Some(TooBig(lr.originalLimit)) && r.next.left < 0
    ensures var w := Read(lr, pLen, inner);
            w.n == lr.left && w.err.None? && w.next.left == 0
  {
  }
}

=== FILE: metric.dfy ===
/** Stats key splitting and histogram bucket preparation of metric/collector.go.

    Bucket bounds are floats in the source; here they are values of an opaque type `F`,
    and the `+Inf` sentinel the source appends is a constructor of its own. */
module Metric {

  const Sep: char := '.'

  /** `stats.Key`: a measure name and a field name. */
  datatype Key = Key(measure: string, field: string)

  /** `stats.Value` of a bucket bound: a finite bound or the `+Inf` sentinel. */
  datatype BucketValue<F> = Bound(x: F) | PosInf

  /** The word a prefix and a name make: the name, behind the prefix and a dot if any. */
  function Word(prefix: string, name: string): string
  {
    if prefix != "" then prefix + [Sep] + name else name
  }

  /** No character of `s` is a dot. */
  predicate NoSep(s: string)
  {
    forall j :: 0 <= j < |s| ==> s[j] != Sep
  }

  /** `strings.LastIndex(s, ".")`: the position of the last dot, or -1 if there is none. */
  function LastIndexOfSep(s: string): (i: int)
    ensures -1 <= i < |s|
    ensures i == -1 ==> NoSep(s)
    ensures i >= 0 ==> s[i] == Sep && NoSep(s[i + 1..])
  {
    if |s| == 0 then -1
    else if s[|s| - 1] == Sep then |s| - 1
    else
      var j := LastIndexOfSep(s[..|s| - 1]);
      assert j >= 0 ==> s[j + 1..] == s[..|s| - 1][j + 1..] + [s[|s| - 1]];
      j
  }

  /** `newStatsKey(prefix, name)`: splits the word at its last dot. With no dot the measure
      is empty and the field is the whole word; otherwise the field holds no dot and the
      measure, a dot and the field give back the word. */
  function NewStatsKey(prefix: string, name: string): (key: Key)
    ensures var word := Word(prefix, name);
            && NoSep(key.field)
            && (NoSep(word) ==> key == Key("", word))
            && (!NoSep(word) ==> key.measure + [Sep] + key.field == word)
  {
    var word := Word(prefix, name);
    var sepIdx := LastIndexOfSep(word);
    if sepIdx == -1 then Key("", word)
    else
      assert word == word[..sepIdx] + [Sep] + word[sepIdx + 1..];
      Key(word[..sepIdx], word[sepIdx + 1..])
  }

  /** The split is unique: a measure and a dot-free field that give back the word are the
      key `NewStatsKey` computes. */
  lemma StatsKeyUnique(prefix: string, name: string, measure: string, field: string)
    requires NoSep(field)
    requires measure + [Sep] + field == Word(prefix, name)
    ensures NewStatsKey(prefix, name) == Key(measure, field)
  {
    var word := Word(prefix, name);
    assert word[|measure|] == Sep;
    var key := NewStatsKey(prefix, name);
    var m, f := key.measure, key.field;
    assert m + [Sep] + f == word;
    assert f == word[|word| - |f|..];
    assert field == word[|word| - |field|..];
    assert m == word[..|m|];
    assert measure == word[..|measure|];
  }

  /** With a prefix, distinct names get distinct keys. */
  lemma StatsKeyInjective(prefix: string, a: string, b: string)
    requires prefix != ""
    requires NewStatsKey(prefix, a) == NewStatsKey(prefix, b)
    ensures a == b
  {
    var wa := Word(prefix, a);
    var wb := Word(prefix, b);
    assert wa[|prefix|] == Sep && wb[|prefix|] == Sep;
    assert wa == wb;
    assert a == wa[|prefix| + 1..];
    assert b == wb[|prefix| + 1..];
  }

  /** Without a prefix, the names "abc" and ".abc" share the key ("", "abc"). */
  lemma StatsKeyCollidesWithoutPrefix()
    ensures NewStatsKey("", "abc") == NewStatsKey("", ".abc") == Key("", "abc")
  {
    assert NoSep("abc");
    StatsKeyUnique("", ".abc", "", "abc");
  }

  /** The table of the package's `newStatsKey` test, cases without a prefix. */
  lemma StatsKeyTableUnprefixed()
    ensures NewStatsKey("", "") == Key("", "")
    ensures NewStatsKey("", "abc") == Key("", "abc")
    ensures NewStatsKey("", "abc.def") == Key("abc", "def")
    ensures NewStatsKey("", "abc.def.efg") == Key("abc.def", "efg")
  {
    assert NoSep("abc");
    assert NoSep("def");
    assert NoSep("efg");
    StatsKeyUnique("", "abc.def", "abc", "def");
    StatsKeyUnique("", "abc.def.efg", "abc.def", "efg");
  }

  /** The prefixed rows of the package's `newStatsKey` test table, all with prefix "123":
      each name with the key the test expects. */
  const PrefixedTable: seq<(string, Key)> :=
    [("abc", Key("123", "abc")),
     ("abc.def", Key("123.abc", "def")),
     ("abc.def.efg", Key("123.abc.def", "efg"))]

  lemma StatsKeyTablePrefixed(row: nat)
    requires row < |PrefixedTable|
    ensures NewStatsKey("123", PrefixedTable[row].0) == PrefixedTable[row].1
  {
    if row == 0 {
      assert NoSep("abc");
      PrefixedCase("123", "abc", "123", "abc");
    } else if row == 1 {
      assert NoSep("def");
      PrefixedCase("123", "abc.def", "123.abc", "def");
    } else {
      assert NoSep("efg");
      PrefixedCase("123", "abc.def.efg", "123.abc.def", "efg");
    }
  }

  lemma PrefixedCase(prefix: string, name: string, measure: string, field: string)
    requires prefix != "" && NoSep(field)
    requires measure + [Sep] + field == prefix + [Sep] + name
    ensures NewStatsKey(prefix, name) == Key(measure, field)
  {
    StatsKeyUnique(prefix, name, measure, field);
  }

  /** The bucket list of one histogram: the bounds in order, then `+Inf`. */
  function WithInf<F>(bounds: seq<F>): (values: seq<BucketValue<F>>)
    ensures |values| == |bounds| + 1
    ensures forall i :: 0 <= i < |bounds| ==> values[i] == Bound(bounds[i])
    ensures values[|bounds|] == PosInf
  {
    if |bounds| == 0 then [PosInf] else [Bound(bounds[0])] + WithInf(bounds[1..])
  }

  /** `order` lists every key of `m` exactly once: how Go's `range` visits a map. */
  ghost predicate VisitOrder<V>(m: map<string, V>, order: seq<string>)
  {
    && (forall k :: k in m <==> k in order)
    && (forall i, j :: 0 <= i < j < |order| ==> order[i] != order[j])
  }

  /** `newHistogramBuckets(prefix, buckets)`, visiting the names in `order`; when two names
      share a key the one visited last wins, as with the source's map assignment. */
  function NewHistogramBuckets<F>(prefix: string, buckets: map<string, seq<F>>, order: seq<string>)
    : (product: map<Key, seq<BucketValue<F>>>)
    requires forall k :: k in order ==> k in buckets
    ensures forall k :: k in order ==> NewStatsKey(prefix, k) in product
    decreases |order|
  {
    if |order| == 0 then map[]
    else
      var last := order[|order| - 1];
      var earlier := NewHistogramBuckets(prefix, buckets, order[..|order| - 1]);
      earlier[NewStatsKey(prefix, last) := WithInf(buckets[last])]
  }

  /** Every histogram of the product is that of a visited name, bounds followed by `+Inf`. */
  lemma {:induction false} ProductFromNames<F>(prefix: string, buckets: map<string, seq<F>>,
                                               order: seq<string>, key: Key)
    requires forall k :: k in order ==> k in buckets
    requires key in NewHistogramBuckets(prefix, buckets, order)
    ensures exists k :: k in order && NewStatsKey(prefix, k) == key
                        && NewHistogramBuckets(prefix, buckets, order)[key] == WithInf(buckets[k])
    decreases |order|
  {
    var init := order[..|order| - 1];
    var last := order[|order| - 1];
    assert forall k :: k in init ==> k in order;
    if NewStatsKey(prefix, last) != key {
      assert key in NewHistogramBuckets(prefix, buckets, init);
      ProductFromNames(prefix, buckets, init, key);
    } else {
      assert last in order;
    }
  }

  /** An empty map gives an empty product. */
  lemma EmptyBuckets<F>(prefix: string, buckets: map<string, seq<F>>, order: seq<string>)
    requires VisitOrder(buckets, order)
    requires |buckets| == 0
    ensures NewHistogramBuckets(prefix, buckets, order) == map[]
  {
  }

  /** With a prefix, no two names collide, so every name's histogram is its own bounds
      followed by `+Inf` (one entry more than its bounds, by `WithInf`), whatever order
      the map is visited in. */
  lemma {:induction false} PrefixedBucketsExact<F>(prefix: string, buckets: map<string, seq<F>>,
                                                   order: seq<string>, k: string)
    requires prefix != ""
    requires forall j :: j in order ==> j in buckets
    requires k in order
    ensures NewStatsKey(prefix, k) in NewHistogramBuckets(prefix, buckets, order)
    ensures NewHistogramBuckets(prefix, buckets, order)[NewStatsKey(prefix, k)] == WithInf(buckets[k])
    decreases |order|
  {
    var init := order[..|order| - 1];
    var last := order[|order| - 1];
    if last != k {
      assert k in init;
      assert NewStatsKey(prefix, last) != NewStatsKey(prefix, k) by {
        if NewStatsKey(prefix, last) == NewStatsKey(prefix, k) {
          StatsKeyInjective(prefix, last, k);
        }
      }
      PrefixedBucketsExact(prefix, buckets, init, k);
    }
  }

  /** Visiting one more name sets (or overwrites) its key and nothing else. */
  lemma HistogramSnoc<F>(prefix: string, buckets: map<string, seq<F>>, order: seq<string>, name: string)
    requires forall k :: k in order ==> k in buckets
    requires name in buckets
    ensures NewHistogramBuckets(prefix, buckets, order + [name])
            == NewHistogramBuckets(prefix, buckets, order)[NewStatsKey(prefix, name) := WithInf(buckets[name])]
  {
    assert (order + [name])[..|order|] == order;
  }

  /** Two names that share a key: the one visited second supplies the histogram. */
  lemma LastWriterWins<F>(prefix: string, buckets: map<string, seq<F>>, x: string, y: string)
    requires x in buckets && y in buckets
    requires NewStatsKey(prefix, x) == NewStatsKey(prefix, y)
    ensures NewHistogramBuckets(prefix, buckets, [x, y]) == map[NewStatsKey(prefix, y) := WithInf(buckets[y])]
  {
    var key := NewStatsKey(prefix, y);
    HistogramSnoc(prefix, buckets, [], x);
    assert [] + [x] == [x];
    HistogramSnoc(prefix, buckets, [x], y);
    assert [x] + [y] == [x, y];
    assert map[key := WithInf(buckets[x])][key := WithInf(buckets[y])] == map[key := WithInf(buckets[y])];
  }

  /** Without a prefix the product depends on the visiting order: for the names "abc" and
      ".abc", which share a key, the one visited last supplies the histogram. */
  lemma UnprefixedBucketsDependOnOrder<F>(a: seq<F>, b: seq<F>)
    ensures var buckets := map["abc" := a, ".abc" := b];
            && NewHistogramBuckets("", buckets, ["abc", ".abc"]) == map[Key("", "abc") := WithInf(b)]
            && NewHistogramBuckets("", buckets, [".abc", "abc"]) == map[Key("", "abc") := WithInf(a)]
  {
    StatsKeyCollidesWithoutPrefix();
    var buckets := map["abc" := a, ".abc" := b];
    LastWriterWins("", buckets, "abc", ".abc");
    LastWriterWins("", buckets, ".abc", "abc");
  }
}

=== FILE: middleware.dfy ===
/** The decisions inside the gin middlewares of controller/middleware.go: how the last recorded
    error becomes a JSON reply, when a request is refused for its declared size, which CORS
    headers are set, and which payloads the audit log records verbatim. */
module Middleware {
  import opened Wrappers
  import opened Errors
  import ErrorCode
  import LimitReader

  /** The largest request body accepted, in bytes. */
  const MaxRequestBodySize: int := 512 * 1024

  const StatusOK: int := 200
  const StatusNoContent: int := 204
  const StatusNotAcceptable: int := 406

  const MethodHead: string := "HEAD"
  const MethodOptions: string := "OPTIONS"

  /** gin's error type flags: bind errors use the top bit, errors recorded with `c.Error`
      from a plain Go error the bottom one. */
  const ErrorTypeBind: bv64 := 1 << 63
  const ErrorTypePrivate: bv64 := 1

  /** An entry of `c.Errors`. */
  datatype GinError = GinError(err: Error, typ: bv64)
  {
    /** `(*gin.Error).IsType`: some of the given flag bits are set. */
    predicate IsType(flags: bv64)
    {
      typ & flags != 0
    }
  }

  /** The response envelope `R`; the error replies never carry `Data`. */
  datatype R = R(code: int, msg: string)

  /** A JSON reply: HTTP status and envelope. */
  datatype Reply = Reply(status: int, body: R)

  // ---------------------------------------------------------------------------------------
  // ErrorMiddleware
  // ---------------------------------------------------------------------------------------

  /** The reply for one recorded error: bind errors first, then an API error anywhere in the
      chain, else a general error; the message is always the error's own text. */
  function Classify(e: GinError): Reply
  {
    var msg := Text(e.err);
    if e.IsType(ErrorTypeBind) then
      Reply(StatusNotAcceptable, R(ErrorCode.CodeBadBinding, msg))
    else match As(e.err)
      case Some(a) => Reply(a.StatusCode(), R(a.Code(), msg))
      case None => Reply(StatusOK, R(ErrorCode.CodeGeneralError, msg))
  }

  /** `ErrorMiddleware`, after the rest of the chain has run with `errors` recorded: nothing
      is written when no error was recorded, otherwise the last error alone decides. */
  function ErrorMiddleware(errors: seq<GinError>): (r: Option<Reply>)
    ensures r.None? <==> |errors| == 0
    ensures r.Some? ==> r.value.body.msg == Text(errors[|errors| - 1].err)
    ensures r.Some? && errors[|errors| - 1].IsType(ErrorTypeBind) ==>
              r.value.status == StatusNotAcceptable && r.value.body.code == ErrorCode.CodeBadBinding
    ensures r.Some? && !errors[|errors| - 1].IsType(ErrorTypeBind) ==>
              forall a :: Is(errors[|errors| - 1].err, Api(a)) ==>
                r.value.status == a.StatusCode() && r.value.body.code == a.Code()
    ensures r.Some? && !errors[|errors| - 1].IsType(ErrorTypeBind)
              && (forall a :: !Is(errors[|errors| - 1].err, Api(a))) ==>
                r.value.status == StatusOK && r.value.body.code == ErrorCode.CodeGeneralError
  {
    if |errors| == 0 then None else Some(Classify(errors[|errors| - 1]))
  }

  /** Errors recorded before the last one never change the reply. */
  lemma OnlyLastErrorMatters(earlier: seq<GinError>, last: GinError)
    ensures ErrorMiddleware(earlier + [last]) == ErrorMiddleware([last])
  {
    assert (earlier + [last])[|earlier + [last]| - 1] == last;
  }

  /** `fmt.Errorf("<c>: %w", ...)` applied once per context, innermost last. */
  function WrapAll(contexts: seq<string>, e: Error): Error
  {
    if |contexts| == 0 then e else Wrap(contexts[0], WrapAll(contexts[1..], e))
  }

  /** Unwrapping any number of wrappers reaches the wrapped error. */
  lemma {:induction false} WrapAllIs(contexts: seq<string>, e: Error)
    ensures Is(WrapAll(contexts, e), e)
    decreases |contexts|
  {
    if |contexts| > 0 {
      WrapAllIs(contexts[1..], e);
    }
  }

  /** An API error keeps its own status and code however deeply it is wrapped, as long as
      the entry is not a bind error. */
  lemma ApiErrorThroughWraps(a: ErrorCode.ApiError, contexts: seq<string>, typ: bv64)
    requires typ & ErrorTypeBind == 0
    ensures var e := WrapAll(contexts, Api(a));
            ErrorMiddleware([GinError(e, typ)]) == Some(Reply(a.StatusCode(), R(a.Code(), Text(e))))
  {
    WrapAllIs(contexts, Api(a));
  }

  /** The bind flag takes precedence over an API error in the chain. */
  lemma BindTakesPrecedence(a: ErrorCode.ApiError, contexts: seq<string>, typ: bv64)
    requires typ & ErrorTypeBind != 0
    ensures var e := WrapAll(contexts, Api(a));
            ErrorMiddleware([GinError(e, typ)])
              == Some(Reply(StatusNotAcceptable, R(ErrorCode.CodeBadBinding, Text(e))))
  {
  }

  /** `errorcode.ErrUnauthorized` recorded by a handler becomes a 403 with code 600401. */
  lemma UnauthorizedReply()
    ensures ErrorMiddleware([GinError(Api(ErrorCode.ErrUnauthorized), ErrorTypePrivate)])
              == Some(Reply(403, R(600401, "Unauthorized")))
  {
    ErrorCode.ErrUnauthorizedFields();
  }

  // ---------------------------------------------------------------------------------------
  // LimitReaderMiddleware
  // ---------------------------------------------------------------------------------------

  /** The error recorded for a request whose declared length is too large. */
  function OversizedError(contentLength: int): Error
  {
    New("oversized payload by content length, got " + FormatInt(contentLength)
        + " bytes, limit " + FormatInt(MaxRequestBodySize) + " bytes")
  }

  /** What the middleware does with the request: abort with the errors now recorded, or
      continue with the body wrapped in a length-limited reader. */
  datatype Gate = Aborted(errors: seq<GinError>) | Continued(body: LimitReader.ReadCloser)

  /** `LimitReaderMiddleware` for a request declaring `contentLength` (-1 when unknown). */
  function LimitReaderMiddleware(contentLength: int, errors: seq<GinError>): (r: Gate)
    ensures r.Aborted? <==> contentLength > MaxRequestBodySize
    ensures r.Aborted? ==>
              r.errors == errors + [GinError(OversizedError(contentLength), ErrorTypePrivate)]
    ensures r.Continued? ==>
              r.body.reader.left == r.body.reader.originalLimit == MaxRequestBodySize
  {
    if contentLength > MaxRequestBodySize then
      Aborted(errors + [GinError(OversizedError(contentLength), ErrorTypePrivate)])
    else
      Continued(LimitReader.NewReadCloser(MaxRequestBodySize))
  }

  /** An oversized request, as `ErrorMiddleware` around it sees it: a general error with
      HTTP 200 whose message names the declared length. */
  lemma OversizedRequestReply(contentLength: int, earlier: seq<GinError>)
    requires contentLength > MaxRequestBodySize
    ensures var g := LimitReaderMiddleware(contentLength, earlier);
            g.Aborted? && ErrorMiddleware(g.errors)
              == Some(Reply(StatusOK, R(ErrorCode.CodeGeneralError, Text(OversizedError(contentLength)))))
  {
    var g := LimitReaderMiddleware(contentLength, earlier);
    OnlyLastErrorMatters(earlier, GinError(OversizedError(contentLength), ErrorTypePrivate));
  }

  /** A request that passes the gate, including one of unknown or understated length, can
      never have more than 512 KiB read from its body when the underlying body honours the
      buffer sizes it is given. */
  lemma ContinuedBodyStaysInLimit(contentLength: int, errors: seq<GinError>, calls: seq<LimitReader.Call>)
    requires contentLength <= MaxRequestBodySize
    requires LimitReader.AllHonest(calls)
    ensures var g := LimitReaderMiddleware(contentLength, errors);
            var p := LimitReader.RunCalls(g.body.reader, calls);
            g.Continued? && 0 <= p.delivered <= MaxRequestBodySize && !p.overrun
  {
    LimitReader.FreshReaderNeverOverruns(MaxRequestBodySize, calls);
  }

  // ---------------------------------------------------------------------------------------
  // CORSMiddleware
  // ---------------------------------------------------------------------------------------

  /** Response headers, one value per canonical name. */
  type Header = map<string, string>

  const AllowOrigin: string := "Access-Control-Allow-Origin"
  const MaxAge: string := "Access-Control-Max-Age"
  const AllowMethods: string := "Access-Control-Allow-Methods"
  const AllowHeaders: string := "Access-Control-Allow-Headers"

  /** The four headers every response gets. */
  const CorsHeaders: Header :=
    map[AllowOrigin := "*", MaxAge := "43200", AllowMethods := "POST",
        AllowHeaders := "Content-Type, Token"]

  /** The headers after the middleware and the status it aborted with, if it did. */
  datatype CorsOutcome = CorsOutcome(headers: Header, aborted: Option<int>)

  /** `CORSMiddleware`: set the four headers, then answer a preflight with 204. */
  function CORSMiddleware(verb: string, headers: Header): (r: CorsOutcome)
    ensures forall h :: h in CorsHeaders ==> h in r.headers && r.headers[h] == CorsHeaders[h]
    ensures forall h :: h !in CorsHeaders ==>
              (h in r.headers <==> h in headers) && (h in headers ==> r.headers[h] == headers[h])
    ensures r.aborted.Some? <==> verb == MethodOptions
    ensures r.aborted.Some? ==> r.aborted.value == StatusNoContent
  {
    var set4 := headers[AllowOrigin := "*"][MaxAge := "43200"][AllowMethods := "POST"]
                       [AllowHeaders := "Content-Type, Token"];
    CorsOutcome(set4, if verb == MethodOptions then Some(StatusNoContent) else None)
  }

  /** Running the middleware again on its own output changes no header. */
  lemma CorsIdempotent(verb: string, headers: Header)
    ensures var once := CORSMiddleware(verb, headers).headers;
            CORSMiddleware(verb, once).headers == once
  {
    var once := CORSMiddleware(verb, headers).headers;
    var twice := CORSMiddleware(verb, once).headers;
    assert forall h :: h in twice <==> h in once;
  }

  // ---------------------------------------------------------------------------------------
  // PayloadAuditLogMiddleware: what gets logged
  // ---------------------------------------------------------------------------------------

  /** The media types whose bodies are logged verbatim. */
  const TextPayloadMIME: seq<string> :=
    ["application/json", "text/xml", "application/xml", "text/html", "text/richtext",
     "text/plain", "text/css", "text/x-script", "text/x-component", "text/x-markdown",
     "application/javascript"]

  /** `pattern` occurs in `s` starting at index `i`. */
  predicate OccursAt(pattern: string, s: string, i: int)
  {
    0 <= i <= |s| - |pattern| && s[i..i + |pattern|] == pattern
  }

  /** `pattern` occurs in `s` at some position. */
  ghost predicate Occurs(pattern: string, s: string)
  {
    exists i :: OccursAt(pattern, s, i)
  }

  /** Substring search, scanning start positions left to right. */
  function Contains(s: string, pattern: string): bool
    decreases |s|
  {
    if |s| < |pattern| then false
    else s[..|pattern|] == pattern || Contains(s[1..], pattern)
  }

  lemma {:induction false} ContainsIff(s: string, pattern: string)
    ensures Contains(s, pattern) <==> Occurs(pattern, s)
    decreases |s|
  {
    if |s| >= |pattern| {
      if s[..|pattern|] == pattern {
        assert OccursAt(pattern, s, 0);
      } else {
        ContainsIff(s[1..], pattern);
        if Occurs(pattern, s[1..]) {
          var i :| OccursAt(pattern, s[1..], i);
          assert s[i + 1..i + 1 + |pattern|] == s[1..][i..i + |pattern|];
          assert OccursAt(pattern, s, i + 1);
        }
        if Occurs(pattern, s) {
          var i :| OccursAt(pattern, s, i);
          assert s[1..][i - 1..i - 1 + |pattern|] == s[i..i + |pattern|];
          assert OccursAt(pattern, s[1..], i - 1);
        }
      }
    }
  }

  /** The matcher compiled from a list of patterns: some pattern occurs in `s`. */
  function MatchesAny(s: string, patterns: seq<string>): (r: bool)
    ensures r <==> exists k :: 0 <= k < |patterns| && Occurs(patterns[k], s)
  {
    if |patterns| == 0 then false
    else
      ContainsIff(s, patterns[0]);
      Contains(s, patterns[0]) || MatchesAny(s, patterns[1..])
  }

  /** The content type decides a body is text. */
  predicate IsTextType(contentType: string)
  {
    contentType != "" && MatchesAny(contentType, TextPayloadMIME)
  }

  /** The request's content type: the header, or, when the header is empty and the body is
      not, the sniffer's verdict on the body. */
  function RequestContentType(header: string, body: string, sniff: string -> string): string
  {
    if header == "" && |body| > 0 then sniff(body) else header
  }

  /** A body field of the audit entry: the body itself, or a note naming the content type. */
  datatype BodyLog = Logged(body: string) | Unsupported(contentType: string)
  {
    function Text(): string
    {
      match this
      case Logged(b) => b
      case Unsupported(ct) => "unsupported content type: " + ct
    }
  }

  function BodyLogFor(contentType: string, body: string): BodyLog
  {
    if IsTextType(contentType) then Logged(body) else Unsupported(contentType)
  }

  /** One audit entry: the request body field and, when responses are audited, the response
      body field. */
  datatype AuditEntry = AuditEntry(request: BodyLog, response: Option<BodyLog>)

  /** The audit decision for one request, after the handlers ran. `reqBody` is what the
      handlers read of the request body through the tee, not necessarily the whole body;
      `respBody` is what they wrote. */
  function PayloadAudit(auditResponse: bool, verb: string, skipLogging: bool,
                        reqHeaderType: string, reqBody: string,
                        respHeaderType: string, respBody: string,
                        sniff: string -> string): (r: Option<AuditEntry>)
    ensures r.None? <==> verb == MethodHead || verb == MethodOptions || skipLogging
    ensures r.Some? ==>
              var ct := RequestContentType(reqHeaderType, reqBody, sniff);
              && (r.value.request.Logged? <==>
                    ct != "" && exists k :: 0 <= k < |TextPayloadMIME| && Occurs(TextPayloadMIME[k], ct))
              && (r.value.request.Logged? ==> r.value.request.body == reqBody)
              && (r.value.request.Unsupported? ==> r.value.request.contentType == ct)
    ensures r.Some? ==> (r.value.response.Some? <==> auditResponse)
    ensures r.Some? && auditResponse ==>
              && (r.value.response.value.Logged? <==>
                    respHeaderType != ""
                    && exists k :: 0 <= k < |TextPayloadMIME| && Occurs(TextPayloadMIME[k], respHeaderType))
              && (r.value.response.value.Logged? ==> r.value.response.value.body == respBody)
              && (r.value.response.value.Unsupported? ==>
                    r.value.response.value.contentType == respHeaderType)
  {
    if verb == MethodHead || verb == MethodOptions || skipLogging then None
    else
      var ct := RequestContentType(reqHeaderType, reqBody, sniff);
      Some(AuditEntry(BodyLogFor(ct, reqBody),
                      if auditResponse then Some(BodyLogFor(respHeaderType, respBody)) else None))
  }

  /** The sniffer is consulted only for a request with no Content-Type header and a
      non-empty body; otherwise any two sniffers give the header. */
  lemma SniffOnlyWithoutHeader(header: string, body: string, s1: string -> string, s2: string -> string)
    ensures header != "" || |body| == 0 ==>
              RequestContentType(header, body, s1) == header == RequestContentType(header, body, s2)
    ensures header == "" && |body| > 0 ==> RequestContentType(header, body, s1) == s1(body)
  {
  }

  /** A JSON body with a charset parameter is logged verbatim. */
  lemma JsonWithCharsetIsText()
    ensures IsTextType("application/json; charset=utf-8")
  {
    var ct := "application/json; charset=utf-8";
    assert ct[0..16] == TextPayloadMIME[0];
    assert OccursAt(TextPayloadMIME[0], ct, 0);
  }

  /** Every listed type has a `/`, so a content type without one, such as a bare `json`,
      is never logged verbatim. */
  lemma NoSlashIsNotText(ct: string)
    requires forall i | 0 <= i < |ct| :: ct[i] != '/'
    ensures !IsTextType(ct)
  {
    forall k | 0 <= k < |TextPayloadMIME|
      ensures !Occurs(TextPayloadMIME[k], ct)
    {
      var p := TextPayloadMIME[k];
      var j := if p[0] == 'a' then 11 else 4;
      assert p[j] == '/';
    }
  }
}

=== FILE: pg_watch.dfy ===
/** The topic-to-callbacks registry of database/pg.go (`Watch`, `watch`, `getWatchCallbacks`,
    `Close`), run sequentially: a `Watch` is one state transition, and one notification
    taken off the listener's channel is dispatched to completion before the next.

    Callbacks are identified by number. The upstream LISTEN and the close calls are
    external; their errors are arguments. */
module PgWatch {
  import opened Wrappers
  import opened Errors

  type CallbackId = nat
  type Registry = map<string, seq<CallbackId>>

  /** Every notification is handled under a context with this deadline, in seconds. */
  const DispatchTimeoutSeconds: nat := 10

  /** `listening` is the one-shot flag (the listener exists); `registry` is `topicCallbacks`. */
  datatype DB = DB(listening: bool, registry: Registry)

  /** A freshly connected `DB`: no listener, and a nil (so empty) registry. */
  const Fresh: DB := DB(false, map[])

  datatype WatchResult = WatchResult(db: DB, err: Option<Error>)

  /** A notification as the listener's channel delivers it. */
  datatype Notification = Notification(channel: string, payload: string)

  /** The context one notification is handled under: which notification it was created for
      (its serial number on the channel) and its deadline. */
  datatype Context = Context(serial: nat, timeoutSeconds: nat)

  /** What the dispatch loop does, in order. */
  datatype Event = Invoke(cb: CallbackId, ctx: Context, n: Notification) | Cancel(ctx: Context)

  /** `getWatchCallbacks`: the callbacks registered on `topic`; nil when there are none. */
  function Callbacks(registry: Registry, topic: string): (r: seq<CallbackId>)
    ensures topic !in registry ==> r == []
    ensures topic in registry ==> r == registry[topic]
  {
    if topic in registry then registry[topic] else []
  }

  /** How many times `t` is listed in `topics`. */
  function Occurrences(topics: seq<string>, t: string): nat
  {
    if |topics| == 0 then 0 else (if topics[0] == t then 1 else 0) + Occurrences(topics[1..], t)
  }

  function Repeat(cb: CallbackId, k: nat): seq<CallbackId>
  {
    if k == 0 then [] else [cb] + Repeat(cb, k - 1)
  }

  /** The loop of `Watch` over its topics: `cb` goes to the end of each listed topic's list,
      once per listing; no other list changes and no earlier entry moves. */
  function Register(registry: Registry, cb: CallbackId, topics: seq<string>): (r: Registry)
    ensures forall t :: Callbacks(r, t) == Callbacks(registry, t) + Repeat(cb, Occurrences(topics, t))
    ensures r.Keys == registry.Keys + (set t | t in topics)
    decreases |topics|
  {
    if |topics| == 0 then registry
    else
      var t := topics[0];
      var next := registry[t := Callbacks(registry, t) + [cb]];
      RegisterStep(registry, cb, topics);
      assert (set u | u in topics) == {t} + (set u | u in topics[1..]);
      Register(next, cb, topics[1..])
  }

  /** Appending for the first listed topic and then for the rest adds, on every topic, one
      copy of the callback per listing. */
  lemma RegisterStep(registry: Registry, cb: CallbackId, topics: seq<string>)
    requires |topics| > 0
    ensures var next := registry[topics[0] := Callbacks(registry, topics[0]) + [cb]];
            forall u :: Callbacks(next, u) + Repeat(cb, Occurrences(topics[1..], u))
                        == Callbacks(registry, u) + Repeat(cb, Occurrences(topics, u))
  {
    forall u
      ensures Callbacks(registry[topics[0] := Callbacks(registry, topics[0]) + [cb]], u)
                + Repeat(cb, Occurrences(topics[1..], u))
              == Callbacks(registry, u) + Repeat(cb, Occurrences(topics, u))
    {
      RegisterStepAt(registry, cb, topics, u);
    }
  }

  lemma RegisterStepAt(registry: Registry, cb: CallbackId, topics: seq<string>, u: string)
    requires |topics| > 0
    ensures Callbacks(registry[topics[0] := Callbacks(registry, topics[0]) + [cb]], u)
              + Repeat(cb, Occurrences(topics[1..], u))
            == Callbacks(registry, u) + Repeat(cb, Occurrences(topics, u))
  {
    var t := topics[0];
    var next := registry[t := Callbacks(registry, t) + [cb]];
    var k := Occurrences(topics[1..], u);
    if u == t {
      assert Callbacks(next, u) == Callbacks(registry, u) + [cb];
      assert Occurrences(topics, u) == k + 1;
      RepeatCons(cb, k);
      assert (Callbacks(registry, u) + [cb]) + Repeat(cb, k) == Callbacks(registry, u) + ([cb] + Repeat(cb, k));
    } else {
      assert Callbacks(next, u) == Callbacks(registry, u);
      assert Occurrences(topics, u) == k;
    }
  }

  lemma RepeatCons(cb: CallbackId, k: nat)
    ensures [cb] + Repeat(cb, k) == Repeat(cb, k + 1)
  {
  }

  /** `Watch`: the first call creates the listener and an empty registry, exactly once; the
      LISTEN on the topics may then fail, and if it does nothing is registered. */
  function Watch(db: DB, cb: CallbackId, topics: seq<string>, listenErr: Option<Error>): (r: WatchResult)
    ensures r.db.listening
    ensures var base := if db.listening then db.registry else map[];
            && (listenErr.Some? ==> r.err == Some(Wrap("db.listener.Listen", listenErr.value)) && r.db.registry == base)
            && (listenErr.None? ==>
                  && r.err.None?
                  && forall t :: Callbacks(r.db.registry, t) == Callbacks(base, t) + Repeat(cb, Occurrences(topics, t)))
  {
    var initialised := if db.listening then db else DB(true, map[]);
    if listenErr.Some? then
      WatchResult(initialised, Some(Wrap("db.listener.Listen", listenErr.value)))
    else
      WatchResult(initialised.(registry := Register(initialised.registry, cb, topics)), None)
  }

  /** The calls of one dispatch, in order: each callback of the list with the shared context. */
  function Invocations(cbs: seq<CallbackId>, ctx: Context, n: Notification): (evs: seq<Event>)
    ensures |evs| == |cbs|
    ensures forall i :: 0 <= i < |cbs| ==> evs[i] == Invoke(cbs[i], ctx, n)
  {
    if |cbs| == 0 then [] else [Invoke(cbs[0], ctx, n)] + Invocations(cbs[1..], ctx, n)
  }

  /** One turn of `watch`: a fresh 10-second context for the `serial`-th notification, every
      callback registered on its topic called with it in registration order, then the
      context cancelled. */
  function Dispatch(db: DB, n: Notification, serial: nat): (evs: seq<Event>)
    ensures var cbs := Callbacks(db.registry, n.channel);
            var ctx := Context(serial, DispatchTimeoutSeconds);
            && |evs| == |cbs| + 1
            && (forall i :: 0 <= i < |cbs| ==> evs[i] == Invoke(cbs[i], ctx, n))
            && evs[|cbs|] == Cancel(ctx)
  {
    var ctx := Context(serial, DispatchTimeoutSeconds);
    Invocations(Callbacks(db.registry, n.channel), ctx, n) + [Cancel(ctx)]
  }

  /** `Close`: the listener's close error, if there is a listener, then the pool's. */
  function Close(db: DB, listenerErr: Option<Error>, poolErr: Option<Error>): (errs: seq<Error>)
    ensures |errs| <= 2
    ensures |errs| == (if db.listening && listenerErr.Some? then 1 else 0) + (if poolErr.Some? then 1 else 0)
    ensures forall i :: 0 <= i < |errs| && errs[i].Wrap? && errs[i].context == "db.listener.Close" ==>
              db.listening && i == 0
    ensures poolErr.Some? ==> errs[|errs| - 1] == Wrap("db.pg.Close", poolErr.value)
    ensures db.listening && listenerErr.Some? ==> errs[0] == Wrap("db.listener.Close", listenerErr.value)
    ensures !(db.listening && listenerErr.Some?) && poolErr.Some? ==> errs == [Wrap("db.pg.Close", poolErr.value)]
  {
    (if db.listening && listenerErr.Some? then [Wrap("db.listener.Close", listenerErr.value)] else [])
    + (if poolErr.Some? then [Wrap("db.pg.Close", poolErr.value)] else [])
  }

  /** Nothing `Close` meets is lost and nothing is invented: each failure it runs into is
      reported by an error that unwraps (`errors.Is`) to it, and each reported error unwraps
      to one of those failures. The listener is only closed when there is one. */
  lemma CloseReportsEachFailure(db: DB, listenerErr: Option<Error>, poolErr: Option<Error>)
    ensures var errs := Close(db, listenerErr, poolErr);
            && (db.listening && listenerErr.Some? ==> exists i :: 0 <= i < |errs| && Is(errs[i], listenerErr.value))
            && (poolErr.Some? ==> exists i :: 0 <= i < |errs| && Is(errs[i], poolErr.value))
            && (forall i :: 0 <= i < |errs| ==>
                  (db.listening && listenerErr.Some? && Is(errs[i], listenerErr.value))
                  || (poolErr.Some? && Is(errs[i], poolErr.value)))
  {
    var errs := Close(db, listenerErr, poolErr);
    if db.listening && listenerErr.Some? {
      assert Is(errs[0], listenerErr.value);
    }
    if poolErr.Some? {
      assert Is(errs[|errs| - 1], poolErr.value);
    }
  }

  // ---------------------------------------------------------------------------------------
  // Runs: a sequence of `Watch` calls and notifications, handled one after another.

  datatype Step =
    | WatchStep(cb: CallbackId, topics: seq<string>, listenErr: Option<Error>)
    | NotifyStep(n: Notification)

  /** The state after a run and everything the dispatch loop did, in order. A notification
      sent before the first `Watch` reaches no listener of this process and is lost. */
  datatype Trace = Trace(db: DB, events: seq<Event>)

  function Run(db: DB, steps: seq<Step>, serial: nat): Trace
    decreases |steps|
  {
    if |steps| == 0 then Trace(db, [])
    else match steps[0]
      case WatchStep(cb, topics, err) =>
        Run(Watch(db, cb, topics, err).db, steps[1..], serial)
      case NotifyStep(n) =>
        if !db.listening then Run(db, steps[1..], serial)
        else
          var rest := Run(db, steps[1..], serial + 1);
          Trace(rest.db, Dispatch(db, n, serial) + rest.events)
  }

  /** How many times callback `cb` was called. */
  function Count(events: seq<Event>, cb: CallbackId): nat
  {
    if |events| == 0 then 0
    else (if events[0].Invoke? && events[0].cb == cb then 1 else 0) + Count(events[1..], cb)
  }

  /** Registration is append-only and the listener is created once: once a `DB` listens, no
      later run removes, reorders or resets a registered callback. */
  lemma {:induction false} RunAppendOnly(db: DB, steps: seq<Step>, serial: nat, t: string)
    requires db.listening
    ensures var after := Run(db, steps, serial).db;
            after.listening && Callbacks(db.registry, t) <= Callbacks(after.registry, t)
    decreases |steps|
  {
    if |steps| > 0 {
      match steps[0]
      case WatchStep(cb, topics, err) =>
        RunAppendOnly(Watch(db, cb, topics, err).db, steps[1..], serial, t);
      case NotifyStep(n) =>
        RunAppendOnly(db, steps[1..], serial + 1, t);
    }
  }

  lemma CountAppend(a: seq<Event>, b: seq<Event>, cb: CallbackId)
    ensures Count(a + b, cb) == Count(a, cb) + Count(b, cb)
  {
    if |a| == 0 {
      assert a + b == b;
    } else {
      assert (a + b)[0] == a[0];
      assert (a + b)[1..] == a[1..] + b;
      CountAppend(a[1..], b, cb);
    }
  }

  const Topic1: string := "test:topic1"
  const Topic2: string := "test:topic2"
  const Payload1: string := "test_payload_123489rds"
  const Payload2: string := "test_payload_1cds1aq18"

  /** The registry after registering A and B on T1, then C on T2 and T1. */
  lemma FanOutRegistries(a: CallbackId, b: CallbackId, c: CallbackId)
    ensures var db := Watch(Watch(Watch(Fresh, a, [Topic1], None).db, b, [Topic1], None).db,
                            c, [Topic2, Topic1], None).db;
            Callbacks(db.registry, Topic1) == [a, b, c] && Callbacks(db.registry, Topic2) == [c]
  {
    assert Topic1 != Topic2 by { assert Topic1[10] != Topic2[10]; }
    OccurrencesPair(Topic2, Topic1, Topic1);
    OccurrencesPair(Topic2, Topic1, Topic2);
    var db1 := Watch(Fresh, a, [Topic1], None).db;
    assert Callbacks(db1.registry, Topic1) == [a];
    assert Callbacks(db1.registry, Topic2) == [];
    var db2 := Watch(db1, b, [Topic1], None).db;
    assert Callbacks(db2.registry, Topic1) == [a, b];
    assert Callbacks(db2.registry, Topic2) == [];
  }

  /** Fan-out: with A and B registered on T1 and C on T2 and T1, a notification on T1 calls
      A, B, C in that order under one context, and one on T2 calls C alone. */
  lemma FanOutOrder(a: CallbackId, b: CallbackId, c: CallbackId)
    ensures var db := Watch(Watch(Watch(Fresh, a, [Topic1], None).db, b, [Topic1], None).db,
                            c, [Topic2, Topic1], None).db;
            var ctx := Context(0, DispatchTimeoutSeconds);
            var n1 := Notification(Topic1, Payload1);
            var n2 := Notification(Topic2, Payload2);
            && Dispatch(db, n1, 0) == [Invoke(a, ctx, n1), Invoke(b, ctx, n1), Invoke(c, ctx, n1), Cancel(ctx)]
            && Dispatch(db, n2, 0) == [Invoke(c, ctx, n2), Cancel(ctx)]
  {
    FanOutRegistries(a, b, c);
    var db := Watch(Watch(Watch(Fresh, a, [Topic1], None).db, b, [Topic1], None).db,
                    c, [Topic2, Topic1], None).db;
  }

  /** The steps of the package's watch-and-notify test. */
  const ScenarioSteps: seq<Step> :=
    [WatchStep(1, [Topic1], None), NotifyStep(Notification(Topic1, Payload1)),
     WatchStep(2, [Topic2], None), NotifyStep(Notification(Topic1, Payload1)),
     NotifyStep(Notification(Topic2, Payload2)),
     WatchStep(3, [Topic2, Topic1], None), NotifyStep(Notification(Topic1, Payload1)),
     NotifyStep(Notification(Topic2, Payload2))]

  /** The registry after each of the scenario's three `Watch` calls. */
  lemma ScenarioRegistries()
    ensures var db1 := Watch(Fresh, 1, [Topic1], None).db;
            var db2 := Watch(db1, 2, [Topic2], None).db;
            var db3 := Watch(db2, 3, [Topic2, Topic1], None).db;
            && db1.listening && Callbacks(db1.registry, Topic1) == [1]
            && Callbacks(db2.registry, Topic1) == [1] && Callbacks(db2.registry, Topic2) == [2]
            && Callbacks(db3.registry, Topic1) == [1, 3] && Callbacks(db3.registry, Topic2) == [2, 3]
  {
    assert Topic1 != Topic2 by { assert Topic1[10] != Topic2[10]; }
    OccurrencesPair(Topic2, Topic1, Topic1);
    OccurrencesPair(Topic2, Topic1, Topic2);
  }

  /** A `Watch` step produces no event. */
  lemma RunWatchStep(db: DB, steps: seq<Step>, serial: nat)
    requires |steps| > 0 && steps[0].WatchStep?
    ensures Run(db, steps, serial).events
            == Run(Watch(db, steps[0].cb, steps[0].topics, steps[0].listenErr).db, steps[1..], serial).events
  {
  }

  /** A notification on a listening `DB` is dispatched before the rest of the run. */
  lemma RunNotifyStep(db: DB, steps: seq<Step>, serial: nat)
    requires |steps| > 0 && steps[0].NotifyStep? && db.listening
    ensures Run(db, steps, serial).events
            == Dispatch(db, steps[0].n, serial) + Run(db, steps[1..], serial + 1).events
  {
  }

  /** The last three steps of the scenario's shape: watch, then notify twice. */
  lemma RunShapeEnd(d2: DB, w3: Step, m4: Notification, m5: Notification)
    requires w3.WatchStep?
    ensures var d3 := Watch(d2, w3.cb, w3.topics, w3.listenErr).db;
            Run(d2, [w3, NotifyStep(m4), NotifyStep(m5)], 3).events
              == Dispatch(d3, m4, 3) + Dispatch(d3, m5, 4)
  {
    var d3 := Watch(d2, w3.cb, w3.topics, w3.listenErr).db;
    var steps := [w3, NotifyStep(m4), NotifyStep(m5)];
    RunWatchStep(d2, steps, 3);
    assert steps[1..] == [NotifyStep(m4), NotifyStep(m5)];
    RunNotifyStep(d3, steps[1..], 3);
    assert steps[1..][1..] == [NotifyStep(m5)];
    RunNotifyStep(d3, steps[1..][1..], 4);
    assert steps[1..][1..][1..] == [];
  }

  /** The last five steps of the scenario's shape: notify twice, watch, notify twice. */
  lemma RunShapeMiddle(d2: DB, m2: Notification, m3: Notification, w3: Step,
                       m4: Notification, m5: Notification)
    requires d2.listening && w3.WatchStep?
    ensures var d3 := Watch(d2, w3.cb, w3.topics, w3.listenErr).db;
            Run(d2, [NotifyStep(m2), NotifyStep(m3), w3, NotifyStep(m4), NotifyStep(m5)], 1).events
              == Dispatch(d2, m2, 1) + (Dispatch(d2, m3, 2) + (Dispatch(d3, m4, 3) + Dispatch(d3, m5, 4)))
  {
    var steps := [NotifyStep(m2), NotifyStep(m3), w3, NotifyStep(m4), NotifyStep(m5)];
    RunNotifyStep(d2, steps, 1);
    assert steps[1..] == [NotifyStep(m3), w3, NotifyStep(m4), NotifyStep(m5)];
    RunNotifyStep(d2, steps[1..], 2);
    assert steps[1..][1..] == [w3, NotifyStep(m4), NotifyStep(m5)];
    RunShapeEnd(d2, w3, m4, m5);
  }

  /** A run shaped like the scenario: watch, notify, watch, notify twice, watch, notify
      twice. Its events are the five dispatches, each against the registry of the moment. */
  lemma RunShape(d0: DB, w1: Step, m1: Notification, w2: Step, m2: Notification,
                 m3: Notification, w3: Step, m4: Notification, m5: Notification)
    requires w1.WatchStep? && w2.WatchStep? && w3.WatchStep?
    ensures var d1 := Watch(d0, w1.cb, w1.topics, w1.listenErr).db;
            var d2 := Watch(d1, w2.cb, w2.topics, w2.listenErr).db;
            var d3 := Watch(d2, w3.cb, w3.topics, w3.listenErr).db;
            Run(d0, [w1, NotifyStep(m1), w2, NotifyStep(m2), NotifyStep(m3), w3, NotifyStep(m4), NotifyStep(m5)], 0).events
              == Dispatch(d1, m1, 0) + (Dispatch(d2, m2, 1) + (Dispatch(d2, m3, 2) + (Dispatch(d3, m4, 3) + Dispatch(d3, m5, 4))))
  {
    var steps := [w1, NotifyStep(m1), w2, NotifyStep(m2), NotifyStep(m3), w3, NotifyStep(m4), NotifyStep(m5)];
    var rest := [NotifyStep(m2), NotifyStep(m3), w3, NotifyStep(m4), NotifyStep(m5)];
    var d1 := Watch(d0, w1.cb, w1.topics, w1.listenErr).db;
    var d2 := Watch(d1, w2.cb, w2.topics, w2.listenErr).db;
    RunWatchStep(d0, steps, 0);
    assert steps[1..] == [NotifyStep(m1), w2] + rest;
    RunNotifyStep(d1, steps[1..], 0);
    assert steps[1..][1..] == [w2] + rest;
    RunWatchStep(d1, steps[1..][1..], 1);
    assert steps[1..][1..][1..] == rest;
    RunShapeMiddle(d2, m2, m3, w3, m4, m5);
  }

  /** The scenario's events are its five dispatches, in order. */
  lemma ScenarioEvents()
    ensures var db1 := Watch(Fresh, 1, [Topic1], None).db;
            var db2 := Watch(db1, 2, [Topic2], None).db;
            var db3 := Watch(db2, 3, [Topic2, Topic1], None).db;
            var n1 := Notification(Topic1, Payload1);
            var n2 := Notification(Topic2, Payload2);
            Run(Fresh, ScenarioSteps, 0).events ==
              Dispatch(db1, n1, 0) + (Dispatch(db2, n1, 1) + (Dispatch(db2, n2, 2) + (Dispatch(db3, n1, 3) + Dispatch(db3, n2, 4))))
  {
    var n1 := Notification(Topic1, Payload1);
    var n2 := Notification(Topic2, Payload2);
    RunShape(Fresh, WatchStep(1, [Topic1], None), n1, WatchStep(2, [Topic2], None), n1, n2,
             WatchStep(3, [Topic2, Topic1], None), n1, n2);
  }

  /** How many entries of `cbs` are `cb`. */
  function Multiplicity(cbs: seq<CallbackId>, cb: CallbackId): nat
  {
    if |cbs| == 0 then 0 else (if cbs[0] == cb then 1 else 0) + Multiplicity(cbs[1..], cb)
  }

  /** One notification calls each callback once per entry it has on the topic: none at all
      for a topic nobody registered. */
  lemma DispatchCallsEachEntryOnce(db: DB, n: Notification, serial: nat, cb: CallbackId)
    ensures Count(Dispatch(db, n, serial), cb) == Multiplicity(Callbacks(db.registry, n.channel), cb)
    ensures n.channel !in db.registry ==> Count(Dispatch(db, n, serial), cb) == 0
  {
    var ctx := Context(serial, DispatchTimeoutSeconds);
    var cbs := Callbacks(db.registry, n.channel);
    InvocationsCount(cbs, ctx, n, cb);
    CountAppend(Invocations(cbs, ctx, n), [Cancel(ctx)], cb);
  }

  lemma {:induction false} InvocationsCount(cbs: seq<CallbackId>, ctx: Context, n: Notification, cb: CallbackId)
    ensures Count(Invocations(cbs, ctx, n), cb) == Multiplicity(cbs, cb)
    decreases |cbs|
  {
    if |cbs| > 0 {
      var evs := Invocations(cbs, ctx, n);
      assert evs[1..] == Invocations(cbs[1..], ctx, n);
      InvocationsCount(cbs[1..], ctx, n, cb);
    }
  }

  lemma OccurrencesPair(a: string, b: string, t: string)
    ensures Occurrences([a, b], t) == (if a == t then 1 else 0) + (if b == t then 1 else 0)
  {
    assert [a, b][1..] == [b];
    assert [b][1..] == [];
    assert Occurrences([b], t) == (if b == t then 1 else 0) + Occurrences([], t);
    assert Occurrences([a, b], t) == (if a == t then 1 else 0) + Occurrences([b], t);
  }

  lemma MultiplicityPair(a: CallbackId, b: CallbackId, cb: CallbackId)
    ensures Multiplicity([a], cb) == (if a == cb then 1 else 0)
    ensures Multiplicity([a, b], cb) == (if a == cb then 1 else 0) + (if b == cb then 1 else 0)
  {
    assert [a][1..] == [];
    assert [a, b][1..] == [b];
    assert [b][1..] == [];
  }

  /** How often callback `cb` is called over the scenario's run. */
  lemma ScenarioCount(cb: CallbackId)
    ensures Count(Run(Fresh, ScenarioSteps, 0).events, cb)
            == Multiplicity([1], cb) + Multiplicity([1], cb) + Multiplicity([2], cb)
               + Multiplicity([1, 3], cb) + Multiplicity([2, 3], cb)
  {
    ScenarioRegistries();
    ScenarioEvents();
    var db1 := Watch(Fresh, 1, [Topic1], None).db;
    var db2 := Watch(db1, 2, [Topic2], None).db;
    var db3 := Watch(db2, 3, [Topic2, Topic1], None).db;
    var n1 := Notification(Topic1, Payload1);
    var n2 := Notification(Topic2, Payload2);
    var e0, e1, e2, e3, e4 := Dispatch(db1, n1, 0), Dispatch(db2, n1, 1), Dispatch(db2, n2, 2),
                              Dispatch(db3, n1, 3), Dispatch(db3, n2, 4);
    DispatchCallsEachEntryOnce(db1, n1, 0, cb);
    DispatchCallsEachEntryOnce(db2, n1, 1, cb);
    DispatchCallsEachEntryOnce(db2, n2, 2, cb);
    DispatchCallsEachEntryOnce(db3, n1, 3, cb);
    DispatchCallsEachEntryOnce(db3, n2, 4, cb);
    CountAppend(e3, e4, cb);
    CountAppend(e2, e3 + e4, cb);
    CountAppend(e1, e2 + (e3 + e4), cb);
    CountAppend(e0, e1 + (e2 + (e3 + e4)), cb);
  }

  /** The run of the package's watch-and-notify test: three callbacks, five notifications;
      the first callback ends up called 3 times, the second and third twice each. */
  lemma WatchAndNotifyScenario()
    ensures var events := Run(Fresh, ScenarioSteps, 0).events;
            Count(events, 1) == 3 && Count(events, 2) == 2 && Count(events, 3) == 2
  {
    ScenarioCount(1);
    ScenarioCount(2);
    ScenarioCount(3);
    MultiplicityPair(1, 3, 1);
    MultiplicityPair(2, 3, 1);
    MultiplicityPair(1, 3, 2);
    MultiplicityPair(2, 3, 2);
    MultiplicityPair(1, 3, 3);
    MultiplicityPair(2, 3, 3);
  }
}

=== FILE: raw_json.dfy ===
/** `RawMessage` of internal/json/jsoniter.go: a byte slice whose nil and empty values differ. */
module RawJson {
  import opened Wrappers
  import opened Errors

  /** A Go `[]byte`: `None` is the nil slice, `Some([])` an empty but non-nil one. */
  type RawMessage = Option<Bytes>

  /** The four bytes of the JSON literal `null`. */
  const Null: Bytes := [0x6e, 0x75, 0x6c, 0x6c]

  /** The error for an `UnmarshalJSON` through a nil pointer. */
  const NilPointerError: Error := New("json.RawMessage: UnmarshalJSON on nil pointer")

  /** `(*m)[0:0]`: reslicing keeps a nil slice nil and makes any other slice empty. */
  function Truncate(s: RawMessage): RawMessage
  {
    match s
    case None => None
    case Some(_) => Some([])
  }

  /** `append(s, data...)`: appending nothing returns `s` itself, nil included. */
  function Append(s: RawMessage, data: Bytes): RawMessage
  {
    if |data| == 0 then s else Some((if s.None? then [] else s.value) + data)
  }

  /** `RawMessage.MarshalJSON`: never fails; nil encodes as `null`, anything else, the empty
      message included, as its own bytes. */
  function MarshalJSON(m: RawMessage): (r: Result<Bytes, Error>)
    ensures r.Success?
    ensures m.None? ==> r.value == Null
    ensures m.Some? ==> r.value == m.value
  {
    if m.None? then Success(Null) else Success(m.value)
  }

  /** The pointer after `UnmarshalJSON` and the error it returned; a `None` pointer is nil. */
  datatype Unmarshalled = Unmarshalled(target: Option<RawMessage>, err: Option<Error>)

  /** `(*RawMessage).UnmarshalJSON(data)`: through a nil pointer an error and no write;
      otherwise `*m` becomes a copy of `data` and the previous contents are gone, except that
      a nil `*m` stays nil when `data` is empty. */
  function UnmarshalJSON(target: Option<RawMessage>, data: Bytes): (r: Unmarshalled)
    ensures target.None? ==> r == Unmarshalled(None, Some(NilPointerError))
    ensures target.Some? ==> r.err.None? && r.target.Some?
    ensures target.Some? && (|data| > 0 || target.value.Some?) ==> r.target.value == Some(data)
    ensures target.Some? && |data| == 0 && target.value.None? ==> r.target.value == None
  {
    match target
    case None => Unmarshalled(None, Some(NilPointerError))
    case Some(m) =>
      assert [] + data == data;
      Unmarshalled(Some(Append(Truncate(m), data)), None)
  }

  /** Unmarshalling non-empty data and marshalling the result gives the data back. */
  lemma UnmarshalMarshalRoundTrip(m: RawMessage, data: Bytes)
    requires |data| > 0
    ensures var u := UnmarshalJSON(Some(m), data);
            u.err.None? && MarshalJSON(u.target.value) == Success(data)
  {
  }

  /** A non-nil message survives marshalling then unmarshalling into any non-nil message:
      nothing of the old contents is left. */
  lemma MarshalUnmarshalRoundTrip(m: Bytes, prev: Bytes)
    ensures UnmarshalJSON(Some(Some(prev)), MarshalJSON(Some(m)).value).target == Some(Some(m))
  {
  }

  /** The nil/empty edge: a nil message given empty data stays nil and marshals as `null`,
      while an empty non-nil message given empty data marshals to no bytes at all. */
  lemma EmptyDataEdge(prev: Bytes)
    ensures MarshalJSON(UnmarshalJSON(Some(None), []).target.value) == Success(Null)
    ensures MarshalJSON(UnmarshalJSON(Some(Some(prev)), []).target.value) == Success([])
  {
  }
}

=== FILE: wrappers.dfy ===
/** Option and Result: the model's stand-ins for Go's nil and for `(value, error)` returns;
    and Go's `[]byte`. */
module Wrappers {

  /** `None` plays the part of a nil slice, pointer or error. */
  datatype Option<+T> = None | Some(value: T)

  /** A Go `(value, err)` pair in which exactly one side is meaningful. */
  datatype Result<+R, +E> = Success(value: R) | Failure(error: E)

  /** A Go `[]byte`, apart from the nil-versus-empty distinction where that matters. */
  type Bytes = seq<bv8>
}
